=== FILE: README.md ===
# econet-2021 robot firmware and capture helpers, in Dafny

This project models the motion-control firmware of the econet-2021 rubbish-sorting robot. It also models three small Python helpers that number and rank the robot's training photos.

The firmware is a stack of control loops:

- `RotaryEncoder` turns a hardware counter reading into a wheel position and velocity.
- `Wheel` closes a velocity PID loop around the encoder and an actuator with an integer speed.
- `WheelPositionController` closes a position PID loop on top of `Wheel`, in a normalised domain, and clamps its output.
- `Chassis` holds two such wheels. It turns an atomic movement (drive straight, or turn in place by an angle in degrees) into wheel position targets and keeps an odometry pose.
- `MovementController` splits a relative pose change into three atomic movements: turn to face the target, drive, then turn to the requested heading.

Beside the stack sit the actuator drivers `Motor` (sign and magnitude) and `DcMotor` (PWM duty, direction pins), the drawer enable pins, and the ITG-3205 gyroscope driver with its register map.

The Python helpers are:

- `photo.py`: `sorting` reads the number in a name like `paper12.jpg`, and `get_last_number` picks the largest one in a directory.
- `take_samples.py`: `get_next_image_index` picks the next free numeric file name.
- `hist_sorted.py`: `sort_hist` ranks histogram bins by amount.

How the model is built:

- Every component is an immutable datatype. Every operation is a pure function that returns the new state, except the two calibration loops `Itg3205.SumSamples` and `Itg3205.Calibrate`. Those are methods, but they touch no heap: they take the device as a value and return the new one.
- A Rust panic and a Python exception are an explicit `Panic(reason)` result (module `Panics`). This covers `unwrap` on `None`, `assert_ne!`, `i8::abs(-128)`, integer overflow in a debug build, a failing `NumCast`, an explicit `panic!`, and Python's `IndexError`.
- Machine integer widths, `as i32` wrap-around, truncating float-to-int casts and Rust's truncating integer division are written out in module `Machine`.
- `f32` is modelled as `real`, with no rounding.
- `libm` (`cosf`, `sinf`, `atan2f`, `sqrtf`) and the external `pid` crate's control law are passed in as function values (`Libm.Libm`, `Pid.PidLaw`). So every property holds for any trigonometry and any PID gains. The only assumption is that a square root is non-negative, and that is carried by the result type of `sqrtf`.
- The chassis and the movement controller are generic, as the source is. The operations they need from the thing they drive are passed in as a record (`Chassis.WheelOps`, `MovementController.ControlledOps`).
- The hardware counter reading of each tick is an argument.
- The I2C bus is a log of the transfers made plus an oracle. The oracle gives the reply to the n-th transfer: either the two bytes read or a bus error.

The model follows the code as written. In four places the firmware does not do what it evidently means to do. For each, the model also has a corrected version, with the properties that separate the two (see "## Findings"):

- **Odometry.** A pose estimate must add only the travel of each tick. `Chassis::update` instead re-adds, on every tick, the whole wheel travel since `movement.start`, which is never refreshed (chassis.rs:91-103, `Chassis.Integrate`). The TODO at chassis.rs:101-102 already doubts the turn step. The corrected version is `ChassisIntended`, which measures each tick from the previous tick's wheel positions.
- **First stage.** `move_relative` only stores the movement (`MovementController.MoveRelative`). The first tick that sees the chassis at its target advances past `InitialRotarion` before starting a stage, so the turn-to-face stage is never commanded. The corrected version, in `MovementControllerIntended`, starts the first stage when the movement is requested.
- **Initial turn units.** The odometry keeps the heading in radians (chassis.rs:103), but the turn-to-face command subtracts it from an angle already converted to degrees (movement_controller.rs:76). The corrected command converts the heading too.
- **Final rotation.** The controller has an idle state, no movement in progress, which `is_target_reached` reports. But finishing the final rotation clears the movement and then unwraps it to start the next stage, which panics. The corrected tick goes idle.

## Model

| member | source | states |
|---|---|---|
| Machine.WrapI32 | software/peripheral-controller/rotary_encoder/src/lib.rs:41 | `as i32` keeps the value modulo 2^32 and leaves a value that already fits unchanged |
| Machine.Trunc | software/peripheral-controller/wheel/src/lib.rs:56 | a float-to-int conversion rounds toward zero: the result is within one of x, on the side of zero |
| Machine.TruncDiv | software/peripheral-controller/dc_motor/src/lib.rs:13 | Rust's `/` on integers: quotient times divisor plus the sign-of-dividend remainder gives back the dividend; it agrees with Euclidean division on non-negative operands |
| Machine.I16FromBeBytes | software/peripheral-controller/itg3205/src/lib.rs:88 | `i16::from_be_bytes` is negative exactly when the high byte has its top bit set |
| Machine.BeBytesRoundTrip | software/peripheral-controller/itg3205/src/lib.rs:88 | decoding the big-endian bytes of any i16 gives it back |
| Machine.BeBytesRoundTripBytes | software/peripheral-controller/itg3205/src/lib.rs:88 | encoding the decoded value of any two bytes gives the bytes back |
| Libm.ToRadians | software/peripheral-controller/chassis/src/chassis.rs:173 | 180 degrees is pi radians, and the conversion keeps the sign |
| Libm.ToDegrees | software/peripheral-controller/chassis/src/movement_controller.rs:76 | pi radians is 180 degrees, and the conversion keeps the sign |
| Libm.DegreesRoundTrip | software/peripheral-controller/chassis/src/movement_controller.rs:76 | degree and radian conversions are inverse to each other, both ways |
| Pid.NextControlOutput | software/peripheral-controller/wheel/src/lib.rs:55 | a PID step returns the control law's output, keeps the law's new internal terms for the next step, and never moves the setpoint |
| RotaryEncoder.New | software/peripheral-controller/rotary_encoder/src/lib.rs:26-37 | a new encoder keeps the pulses per revolution and starts at position 0, velocity 0, last count 0 |
| RotaryEncoder.CountDelta | software/peripheral-controller/rotary_encoder/src/lib.rs:41 | the i64 subtraction last-minus-current panics exactly when it overflows i64; an in-range i32 difference is kept exactly |
| RotaryEncoder.Update | software/peripheral-controller/rotary_encoder/src/lib.rs:39-50 | a tick fails exactly when the count difference does; the position moves by the difference over ppr, the velocity times dt is the position change, and the count is remembered |
| RotaryEncoder.RepeatedCountStandsStill | software/peripheral-controller/rotary_encoder/src/lib.rs:39-50 | reading the same count again keeps the position and reports zero velocity |
| RotaryEncoder.PositionTelescopes | software/peripheral-controller/rotary_encoder/src/lib.rs:39-50 | over any run whose differences fit i32, the position moves by (first count - last count) / ppr, however the counts went in between |
| RotaryEncoder.PositionFromStart | software/peripheral-controller/rotary_encoder/src/lib.rs:26-50 | from power-up the position is minus the latest count over ppr |
| Wheel.New | software/peripheral-controller/wheel/src/lib.rs:30-37 | the wheel holds the actuator, encoder, PID and top speed it is given |
| Wheel.CastToNative | software/peripheral-controller/wheel/src/lib.rs:56 | `NumCast::from` succeeds exactly when the truncated value fits the actuator's type, and then yields it |
| Wheel.Update | software/peripheral-controller/wheel/src/lib.rs:50-62 | the encoder ticks first; the PID is fed minus the velocity; a cast failure and an overflowing sum panic (in that order); otherwise the actuator speed grows by exactly the truncated output, the PID keeps the law's new internal terms, and the setpoint and top speed are kept |
| Wheel.SetSpeed | software/peripheral-controller/wheel/src/lib.rs:72-74 | only the PID setpoint changes; the actuator keeps its speed until the next tick |
| Wheel.GetSpeed | software/peripheral-controller/wheel/src/lib.rs:84-86 | `get_speed` reports the encoder's measured velocity |
| Wheel.GetPosition | software/peripheral-controller/wheel_position_controller/src/lib.rs:103-105 | the wheel's position is its encoder's position |
| Wheel.UpdateMovesByEncoder | software/peripheral-controller/wheel/src/lib.rs:50-62 | a successful tick moves the wheel's position by the counter difference over ppr, and the speed reported next, times dt, is that move |
| Wheel.SmallOutputHoldsSpeed | software/peripheral-controller/wheel/src/lib.rs:50-62 | a dead band: a PID output of magnitude below one never fails the tick and leaves the actuator as it was |
| Wheel.GetSpeedIsMeasured | software/peripheral-controller/wheel/src/lib.rs:84-86 | `get_speed` reports the measured velocity and is unaffected by `set_speed` |
| WheelPositionController.New | software/peripheral-controller/wheel_position_controller/src/lib.rs:36-49 | panics exactly when max_position is 0; otherwise the fields are as given and max_speed is 1, and with a non-zero wheel top speed the controller's divisions are defined |
| WheelPositionController.NormalizationRoundTrips | software/peripheral-controller/wheel_position_controller/src/lib.rs:55-69 | normalising and denormalising positions and speeds are mutually inverse |
| WheelPositionController.GetTargetPosition | software/peripheral-controller/wheel_position_controller/src/lib.rs:51-53 | with a non-zero max_position, normalising the reported target gives back the setpoint the position loop holds |
| WheelPositionController.GetSpeed | software/peripheral-controller/wheel_position_controller/src/lib.rs:93-95 | the speed reported is the wheel's measured velocity |
| WheelPositionController.GetPosition | software/peripheral-controller/wheel_position_controller/src/lib.rs:103-105 | the position reported is the wheel's encoder position |
| WheelPositionController.SetPosition | software/peripheral-controller/wheel_position_controller/src/lib.rs:113-115 | needs only a non-zero max_position, the one divisor it uses; reading the target position back gives exactly what was set, nothing but the setpoint changes, and validity is kept |
| WheelPositionController.SetSpeed | software/peripheral-controller/wheel_position_controller/src/lib.rs:79-83 | panics exactly on 0; otherwise only the speed limit changes |
| WheelPositionController.Clamp | software/peripheral-controller/wheel_position_controller/src/lib.rs:137 | `min(l).max(-l)` lies in [-l, l] and is the identity there for positive l; for a non-positive l it is always -l |
| WheelPositionController.Update | software/peripheral-controller/wheel_position_controller/src/lib.rs:126-140 | fails exactly when the wheel's tick fails, with its reason; the wheel gets the clamped, denormalised speed-plus-output as its target; the commanded speed stays within [-max_speed, max_speed]; the position PID keeps the law's new internal terms |
| WheelPositionController.UpdateKeepsValid | software/peripheral-controller/wheel_position_controller/src/lib.rs:126-140 | a tick keeps the divisions of the next tick defined, and the encoder and actuator configuration |
| Chassis.New | software/peripheral-controller/chassis/src/chassis.rs:57-69 | a new chassis is at the origin, with zero speed and nothing in flight |
| Chassis.WheelPositions | software/peripheral-controller/chassis/src/chassis.rs:71-74 | the left wheel's position first, then the right's |
| Chassis.IsTargetReached | software/peripheral-controller/chassis/src/chassis.rs:145-147 | reached exactly when both wheels report reached |
| Chassis.Integrate | software/peripheral-controller/chassis/src/chassis.rs:90-105 | a drive moves x by cos(heading) and y by sin(heading) times each wheel's travel since the movement began, keeping the heading; a turn changes only the heading, by twice the left wheel's travel over the track width |
| Chassis.Update | software/peripheral-controller/chassis/src/chassis.rs:84-111 | the left wheel ticks before the right and the first panic wins; with nothing in flight the pose stays put; otherwise the pose is integrated and the movement is dropped exactly when both wheels report reached |
| Chassis.SetSpeed | software/peripheral-controller/chassis/src/chassis.rs:121-123 | only the speed changes |
| Chassis.TurnArc | software/peripheral-controller/chassis/src/chassis.rs:173 | a full turn is an arc of pi times the track width per wheel, and no turn is no arc |
| Chassis.WheelTargets | software/peripheral-controller/chassis/src/chassis.rs:167-177 | a drive moves both targets by the distance; a turn moves them by equal and opposite arcs |
| Chassis.MoveAtomic | software/peripheral-controller/chassis/src/chassis.rs:159-178 | the movement in flight is replaced and remembers the wheel positions of this moment; the wheels get the targets; pose and speed are kept |
| Chassis.TurnOdometryInRadians | software/peripheral-controller/chassis/src/chassis.rs:103 | one odometry step that reads the left wheel at the target arc `move_atomic` set adds exactly the angle, in radians, to the heading |
| Chassis.DriveOdometryAlongHeading | software/peripheral-controller/chassis/src/chassis.rs:97-98 | one odometry step that reads both wheels at the targets `move_atomic` set moves the pose by the distance along the heading, for every heading, and keeps the heading |
| Chassis.OdometryRecountsDisplacement | software/peripheral-controller/chassis/src/chassis.rs:91-103 | as written, a second tick with the wheels standing still adds the turn a second time |
| ChassisIntended.UpdateIncremental | software/peripheral-controller/chassis/src/chassis.rs:84-111 | the same tick as `Chassis.Update`, except that the reference wheel positions move to the ones just measured |
| ChassisIntended.TurnTelescopes | software/peripheral-controller/chassis/src/chassis.rs:103 | with incremental odometry, a turn's heading change depends only on where the left wheel ends up, however the travel is split into ticks |
| ChassisIntended.RunIncremental | software/peripheral-controller/chassis/src/chassis.rs:84-111 | a run of corrected ticks keeps the track width and records one wheel reading per tick, the last being the final wheel positions |
| ChassisIntended.IdleRunKeepsPose | software/peripheral-controller/chassis/src/chassis.rs:84-111 | with nothing in flight, any run of ticks leaves the pose alone and starts no movement |
| ChassisIntended.RunIsIntegrateSteps | software/peripheral-controller/chassis/src/chassis.rs:84-111 | a run of corrected ticks during which the movement stays in flight integrates the pose step by step over the wheel readings of the run |
| ChassisIntended.TurnRunHeading | software/peripheral-controller/chassis/src/chassis.rs:103 | corrected, a turn still in flight after any run of ticks has changed the heading by twice the left wheel's travel since the turn began, over the track width, and has not moved the chassis |
| ChassisIntended.DriveRunPosition | software/peripheral-controller/chassis/src/chassis.rs:97-98 | corrected, a drive still in flight after any run of ticks has moved the pose along the heading by each wheel's travel since the drive began |
| ChassisIntended.DriveTelescopes | software/peripheral-controller/chassis/src/chassis.rs:97-98 | with incremental odometry, a drive moves the pose by the wheels' total travel along the heading |
| ChassisIntended.InFlightRunKeepsMovement | software/peripheral-controller/chassis/src/chassis.rs:84-111 | along a run that keeps the movement in flight, the movement keeps its kind and its reference positions are the last wheel reading taken |
| ChassisIntended.IntegrateStepsSnoc | software/peripheral-controller/chassis/src/chassis.rs:91-103 | one more wheel reading at the end of a run is one more odometry step, measured from the reading before it |
| ChassisIntended.RunThenTickIsIntegrateSteps | software/peripheral-controller/chassis/src/chassis.rs:84-111 | an in-flight run followed by one more tick, whether or not that tick finishes the movement, integrates the pose over the run's readings and then the last tick's |
| ChassisIntended.TurnStepsAlong | software/peripheral-controller/chassis/src/chassis.rs:103 | a turn integrated tick by tick turns the start pose in place by twice the left wheel's total travel over the track width |
| ChassisIntended.TurnFinishingRun | software/peripheral-controller/chassis/src/chassis.rs:100-109 | corrected, a turn ticked while in flight and then once more, including the tick that finishes it, has turned the chassis in place by twice the left wheel's travel since the turn was issued, over the track width |
| ChassisIntended.DriveFinishingRun | software/peripheral-controller/chassis/src/chassis.rs:96-99 | corrected, a drive ticked while in flight and then once more, including the tick that finishes it, has moved the pose along the unchanged heading by each wheel's travel since the drive was issued |
| ChassisIntended.TurnArcTurnsByAngle | software/peripheral-controller/chassis/src/chassis.rs:172-175 | the left-wheel target `move_atomic` sets for a turn is the turn's arc past where the wheel stood, and that arc of travel turns the heading by exactly the angle, in radians |
| ChassisIntended.TurnCompletesAtTarget | software/peripheral-controller/chassis/src/chassis.rs:84-111 | corrected, a turn issued by `move_atomic` whose last tick reads the left wheel at its target has turned the chassis in place by exactly the angle, in radians, however many ticks it took |
| ChassisIntended.DriveCompletesAtTarget | software/peripheral-controller/chassis/src/chassis.rs:84-111 | corrected, a drive issued by `move_atomic` whose last tick reads both wheels at their targets has moved the chassis by exactly the distance along its unchanged heading, however many ticks it took |
| MovementController.NewMovement | software/peripheral-controller/chassis/src/movement_controller.rs:29-34 | a movement starts at the initial rotation |
| MovementController.New | software/peripheral-controller/chassis/src/movement_controller.rs:43-48 | a new controller has no movement in progress |
| MovementController.NextStage | software/peripheral-controller/chassis/src/movement_controller.rs:50-63 | panics exactly when there is no movement; after the final rotation the movement is dropped, otherwise its stage advances by one and its target is kept |
| MovementController.Distance | software/peripheral-controller/chassis/src/movement_controller.rs:79 | the drive length is `sqrtf` of the squared displacement, so never negative |
| MovementController.StageCommand | software/peripheral-controller/chassis/src/movement_controller.rs:65-87 | the initial turn is atan2 in degrees minus the pose heading; the drive is a non-negative straight-line distance; the final turn is the requested angle |
| MovementController.StartStage | software/peripheral-controller/chassis/src/movement_controller.rs:65-87 | panics exactly when there is no movement; otherwise it issues the current stage's command and keeps the movement |
| MovementController.MoveRelative | software/peripheral-controller/chassis/src/movement_controller.rs:91-93 | the movement is stored at its first stage and nothing is commanded |
| MovementController.Update | software/peripheral-controller/chassis/src/movement_controller.rs:97-106 | the chassis ticks first; without a movement or before the chassis reaches its target nothing else happens; on reaching, the stage advances and the new stage's command is issued, except that the tick that finishes the final rotation panics |
| MovementController.TickNeverStartsInitialRotation | software/peripheral-controller/chassis/src/movement_controller.rs:97-106 | a tick never issues the turn-to-face: the only commands it can issue are the drive and the final turn |
| MovementController.NewReachedIsChassisReached | software/peripheral-controller/chassis/src/movement_controller.rs:110-112 | right after construction, the controller reports reached exactly when the chassis does |
| MovementController.IsTargetReached | software/peripheral-controller/chassis/src/movement_controller.rs:110-112 | reached exactly when no movement is in progress and the chassis reports reached |
| MovementController.NeverReachedAfterMoveRelative | software/peripheral-controller/chassis/src/movement_controller.rs:91-112 | once `move_relative` is called, the controller reports reached at no point of any run of ticks that does not panic |
| MovementController.MovementNeverFinishes | software/peripheral-controller/chassis/src/movement_controller.rs:97-106 | along any run of ticks that does not panic, a movement stays in progress with the same target and its stage never goes back |
| MovementController.AsWrittenSequence | software/peripheral-controller/chassis/src/movement_controller.rs:91-106 | on a chassis always at its target, two ticks issue only the drive and the final turn, and the third tick panics |
| MovementControllerIntended.IntendedStageCommand | software/peripheral-controller/chassis/src/movement_controller.rs:71-77 | the corrected initial turn, carried out from the pose, leaves the chassis facing the target; the other stages are unchanged |
| MovementControllerIntended.MoveRelativeStarting | software/peripheral-controller/chassis/src/movement_controller.rs:91-93 | the corrected `move_relative` stores the movement and issues the turn-to-face at once |
| MovementControllerIntended.UpdateCompleting | software/peripheral-controller/chassis/src/movement_controller.rs:97-106 | the corrected tick panics only when the chassis's tick does; after the final rotation it goes idle; otherwise it advances like the original |
| MovementControllerIntended.IntendedSequence | software/peripheral-controller/chassis/src/movement_controller.rs:91-112 | corrected, a relative movement issues the turn-to-face, the drive and the final turn in that order, each once, and then the controller is idle and reports reached |
| MovementControllerIntended.InitialTurnMixesUnits | software/peripheral-controller/chassis/src/movement_controller.rs:71-77 | as written, after a quarter turn a target straight ahead gets a turn of -pi/2 "degrees", which does not face it; the corrected command is -90 degrees |
| Motor.DirectionOf | software/peripheral-controller/motor/src/lib.rs:57-61 | counterclockwise, none and clockwise exactly for negative, zero and positive speeds |
| Motor.AbsI8 | software/peripheral-controller/motor/src/lib.rs:64 | `i8::abs` panics exactly on -128 and otherwise is non-negative and equal to x or -x |
| Motor.SetSpeed | software/peripheral-controller/motor/src/lib.rs:55-67 | the direction is set first; for -128 the call then panics; otherwise the magnitude in 0..127 follows, and nothing else is called |
| Motor.OppositeSpeeds | software/peripheral-controller/motor/src/lib.rs:55-67 | opposite speeds send the same magnitude and opposite directions |
| Motor.SetSpeedRecoverable | software/peripheral-controller/motor/src/lib.rs:55-67 | the commanded speed can be recovered from the direction and magnitude sent, so different speeds make different calls |
| DcMotor.MapRange | software/peripheral-controller/dc_motor/src/lib.rs:12-14 | an empty source interval divides by zero; the ends of the source interval map onto the ends of the target one, and the inside onto the inside |
| DcMotor.NewPwmSetSpeed | software/peripheral-controller/dc_motor/src/lib.rs:30-35 | the pin is enabled and the minimum speed kept |
| DcMotor.EffectiveSpeed | software/peripheral-controller/dc_motor/src/lib.rs:49-50 | the u8 sum speed + min_speed panics exactly above 255, and is otherwise capped at 100 |
| DcMotor.SetSpeed | software/peripheral-controller/dc_motor/src/lib.rs:45-58 | the duty is the applied percentage of full scale, rounded down, never above full scale; only the duty changes; the u8 and duty-type overflows panic |
| DcMotor.ZeroSpeedStillDrives | software/peripheral-controller/dc_motor/src/lib.rs:49-57 | a commanded speed of 0 still drives at min_speed percent |
| DcMotor.SetDirection | software/peripheral-controller/dc_motor/src/lib.rs:93-99 | forward is high exactly for clockwise, back exactly for counterclockwise, never both |
| DcMotor.StoppedIsBothLow | software/peripheral-controller/dc_motor/src/lib.rs:93-99 | both pins are low exactly when the direction is none |
| DrawersController.Write | software/peripheral-controller/drawers_controller/src/lib.rs:19-35 | an index above 2 panics; otherwise only the chosen pin changes, to the given level |
| DrawersController.Enable | software/peripheral-controller/drawers_controller/src/lib.rs:28-35 | an index above 2 panics; otherwise the chosen pin is high and the others are kept |
| DrawersController.Disable | software/peripheral-controller/drawers_controller/src/lib.rs:19-26 | an index above 2 panics; otherwise the chosen pin is low and the others are kept |
| DrawersController.EnableDisableLaws | software/peripheral-controller/drawers_controller/src/lib.rs:19-35 | enable and disable are idempotent, and the last one wins |
| Itg3205Register.FromAddr | software/peripheral-controller/itg3205/src/register.rs:4-21 | an address that decodes decodes to a register with that address |
| Itg3205Register.AddrRoundTrip | software/peripheral-controller/itg3205/src/register.rs:4-27 | every register decodes back from its address |
| Itg3205Register.AddrInjective | software/peripheral-controller/itg3205/src/register.rs:4-27 | no two registers share an address |
| Itg3205Register.OutputLayout | software/peripheral-controller/itg3205/src/register.rs:10-20 | each output's low byte follows its high byte, and the gyro axes start at 0x1D, two apart |
| Itg3205.WriteRegister | software/peripheral-controller/itg3205/src/lib.rs:81-83 | one write of [register address, value] to 0x68 is logged; it succeeds exactly when the bus acknowledges, and otherwise returns the bus error |
| Itg3205.ReadRegister | software/peripheral-controller/itg3205/src/lib.rs:85-89 | one write-read of the register address is logged; on success the two bytes are decoded big-endian and signed; otherwise the bus error is returned |
| Itg3205.ReadRegisterReadsValue | software/peripheral-controller/itg3205/src/lib.rs:85-89 | a register that holds v reads back as v |
| Itg3205.WriteAll | software/peripheral-controller/itg3205/src/lib.rs:38-41 | a chain of writes joined by `?` succeeds exactly when every answer is an acknowledgement, returns the first failure's error, and changes only the bus log |
| Itg3205.WriteAllTrace | software/peripheral-controller/itg3205/src/lib.rs:38-41 | the writes logged are exactly those up to and including the first failure |
| Itg3205.InitTransfersAreInitWrites | software/peripheral-controller/itg3205/src/lib.rs:38-41 | the configuration writes are PWR_MGM=0, SMPLRT_DIV=7, DLPF_FS=0x1B and INT_CFG=0, as bus transfers to 0x68 |
| Itg3205.New | software/peripheral-controller/itg3205/src/lib.rs:31-44 | the four configuration writes are made in order, up to the first failure; it succeeds exactly when all four are acknowledged, with a zero offset, and otherwise returns the first error |
| Itg3205.ReadRaw | software/peripheral-controller/itg3205/src/lib.rs:65-71 | the X, Y and Z high registers are read in order, up to the first failure; it succeeds exactly when all three are acknowledged, with the three decoded values |
| Itg3205.Read | software/peripheral-controller/itg3205/src/lib.rs:73-79 | fails exactly when the raw read fails; each axis times 14.375 is the raw value plus the offset |
| Itg3205.Calibrate | software/peripheral-controller/itg3205/src/lib.rs:46-63 | it succeeds exactly when all 3n answers are acknowledged, and then sets the offset to minus the mean of the n samples after 3n reads; a failure returns the first failing read's error, logs the reads up to and including it, and leaves the offset alone; only the bus log and the offset change |
| Itg3205.SumSamples | software/peripheral-controller/itg3205/src/lib.rs:49-56 | the sampling loop: X, Y, Z reads back to back up to the first failure; it succeeds exactly when all are acknowledged, with the component-wise sum of the samples, and otherwise returns the first failure's error |
| Itg3205.ConstantSum | software/peripheral-controller/itg3205/src/lib.rs:49-56 | the sum of n equal samples is n times the sample, on each axis |
| Itg3205.OffsetCancels | software/peripheral-controller/itg3205/src/lib.rs:58-60 | the offset of samples that all read v cancels v |
| Itg3205.CalibratedReadIsZero | software/peripheral-controller/itg3205/src/lib.rs:46-79 | after calibrating on a gyro that reads a constant, reading that constant again gives zero rate |
| Decimal.DigitChar | software/photo.py:11 | the digit character of d is a digit worth d |
| Decimal.Spell | software/util/take_samples.py:34 | the decimal spelling of a number is a non-empty run of digits |
| Decimal.ValueOfSpell | software/util/take_samples.py:18 | `int` of the spelling of n is n |
| Decimal.SpellHasNoLeadingZero | software/util/take_samples.py:34 | the spelling starts with '0' exactly for 0 |
| Photo.SkipFrom | software/photo.py:5-7 | stops at the first character at or below '9', having passed only characters above it; running off the end is an IndexError |
| Photo.DigitsFrom | software/photo.py:9-12 | running off the end inside the digit run is an IndexError |
| Photo.Sorting | software/photo.py:4-13 | every failure of `sorting` is an IndexError |
| Photo.DigitsFromRun | software/photo.py:9-12 | reading a run of digits carries on from the value of the digits read so far |
| Photo.SortingReadsNumber | software/photo.py:4-13 | letters, then digits, then a non-digit, give the digits' value |
| Photo.SortingOfSavedName | software/photo.py:4-13 | the key of `paper{n}.jpg` is n |
| Photo.SortingFailsAtEnd | software/photo.py:4-13 | a name that ends in its digits, or has no digit, raises IndexError |
| Photo.Keys | software/photo.py:18 | the keys exist exactly when every name has one, in order, and otherwise the error is an IndexError |
| Photo.Max | software/photo.py:18-20 | the maximum bounds every element and is one of them |
| Photo.GetLastNumber | software/photo.py:15-20 | succeeds exactly on a non-empty listing whose every name has a key, and returns the largest key, which some name has |
| Photo.ListingKeys | software/photo.py:4-13 | every saved photo's key is its number |
| Photo.FirstCaptureOverwrites | software/photo.py:22-54 | as written, the first photo taken is saved under a name the directory already holds |
| Photo.NextPhotoNumber | software/photo.py:22 | the corrected start number is one past the largest saved number, with the same errors |
| Photo.NextCaptureIsFresh | software/photo.py:22-54 | corrected, the first photo taken gets a name the directory does not hold |
| TakeSamples.Stem | software/util/take_samples.py:17 | `split(".")[0]` is a prefix with no '.', either the whole name or followed by a '.' |
| TakeSamples.GetNextImageIndex | software/util/take_samples.py:15-19 | the result exceeds every numeric name's index and is either 0 or one past some index; it is 0 exactly when no name is numeric |
| TakeSamples.IgnoresUncounted | software/util/take_samples.py:17-18 | a name with a non-numeric stem does not change the result |
| TakeSamples.SavingAdvancesIndex | software/util/take_samples.py:33-35 | after saving `{idx}.png`, the next index is idx + 1 |
| TakeSamples.StemOfNumberedName | software/util/take_samples.py:17 | the stem of `{n}.ext` is the spelling of n |
| TakeSamples.StemOfPrefix | software/util/take_samples.py:17 | the stem of a dot-free text followed by '.' is that text |
| HistSorted.Enumerate | software/common/hist_sorted.py:14 | the pairs are (amount, index) for each bin, in order |
| HistSorted.Insert | software/common/hist_sorted.py:15 | inserting one bin adds exactly that bin |
| HistSorted.InsertOrdered | software/common/hist_sorted.py:15 | inserting a bin with a larger value than all present keeps the order |
| HistSorted.SortHist | software/common/hist_sorted.py:12-15 | the result is a permutation of the enumerated bins |
| HistSorted.SortHistBins | software/common/hist_sorted.py:12-15 | every entry is a real bin with its own amount |
| HistSorted.SortHistOrdered | software/common/hist_sorted.py:15 | amounts descend, and equal amounts keep ascending index order (a stable reverse sort) |
| HistSorted.EachValueOnce | software/common/hist_sorted.py:12-15 | every bin appears once and only once |
| HistSorted.OrderedIsUnique | software/common/hist_sorted.py:15 | two ordered permutations of the same bins are equal |
| HistSorted.SortHistIsTheSort | software/common/hist_sorted.py:12-15 | any ordered permutation of the enumerated bins is the result of `sort_hist` |

## Left out

- `main.rs`, its task wiring, interrupts and pin set-up, and the `pins_create_generator` crate: these are start-up configuration.
- The `encoder` crate holds only trait declarations. Its operations are the `WheelOps` and `ControlledOps` fields.
- The hardware reads and writes. The counter reading is an argument of each tick. PWM and GPIO pins are the last value written, and pin write errors are ignored, as in the source. The I2C bus is a log plus an oracle of replies, and its error codes are opaque.
- The `rprintln!` logging in `Wheel::update`, and the delay between calibration samples.
- The `libm` functions and the `pid` crate's control law are parameters, not definitions. Their code is not part of this model.
- f32 rounding, infinities and NaN: `f32` is `real`. The source divides by ppr, dt, the track width, max_position, the wheel's top speed and the sample count, where f32 would give infinity or NaN on zero. Those divisors are required non-zero (`requires`, `WheelPositionController.Valid`, `numSamples > 0`). For the same reason NaN behaviour of `min`/`max` and NaN histogram amounts are not modelled.
- `Chassis.Update`: the left and right wheels share one type `W` and one `WheelOps`; the source allows two different wheel types.
- Whether a wheel has reached its target is abstract (`WheelOps.reached`): the wheel crates here do not implement `CheckTargetReached`.
- The wheel record: the `max_speed` that the position loop reads from the wheel is a configuration field, since `Wheel` does not declare one. The wheel's position is its encoder's position, since `Wheel` has no `GetPosition` implementation.
- `Wheel.Update`: the actuator reports the last speed set, since the source has no `GetSpeed` implementation for it. The actuator's native speed type is a range `NativeRange`, not a separate Rust type. The float-to-integer cast is `NumCast` on a float that fits after truncation.
- `Motor.SetSpeed`: the `transmute` of the magnitude to the speed controller's type keeps the value, which holds for the 0..127 magnitudes a `u8` controller receives.
- `RotaryEncoder.CountDelta`: an i64 subtraction overflow is a panic, as in a debug build; a release build would wrap.
- `DrawersController`: `Drawers::new` only stores its two arguments and is not modelled. The drawer direction controller is `DcMotor.SetDirection`.
- `Itg3205.ReadRaw`: each axis is one two-byte write-read starting at its high register, as in the source. The device's address auto-increment is what makes the second byte the low register; that is the bus oracle's business.
- Python: `isdigit` and `int` are ASCII only (Unicode digits are left out). The `isfile` filter of `get_next_image_index` is left out, since the input is already the list of file names. The camera loop, GUI, file writes and plotting are left out, except the file names they save under.

## Findings

| source | as written | input that shows it | evidently intended | confidence | as-written member | corrected member |
|---|---|---|---|---|---|---|
| software/peripheral-controller/chassis/src/movement_controller.rs:59-103 | finishing the final rotation clears the movement, then `start_stage` unwraps the cleared movement and panics | any `move_relative` on a chassis that reaches every target: the third tick panics | the controller becomes idle | not executed | MovementController.AsWrittenSequence | MovementControllerIntended.IntendedSequence |
| software/peripheral-controller/chassis/src/movement_controller.rs:91-103 | `move_relative` only stores the movement; the first tick that sees the chassis at rest advances past the initial rotation, so the turn-to-face is never commanded | `move_relative` with dx=100, dy=100 on an idle chassis: the first command is `Linear`, not a 45 degree turn | start the initial stage when the movement is requested | not executed | MovementController.TickNeverStartsInitialRotation | MovementControllerIntended.MoveRelativeStarting |
| software/peripheral-controller/chassis/src/movement_controller.rs:72-76 | the initial turn subtracts the pose heading, kept in radians by the odometry, from an angle in degrees | heading pi/2 after a quarter turn, target straight ahead: the command is a turn of -1.57 degrees instead of -90 | convert the heading to degrees before subtracting | not executed; latent: reached once the initial stage is started | MovementControllerIntended.InitialTurnMixesUnits | MovementControllerIntended.IntendedStageCommand |
| software/peripheral-controller/chassis/src/chassis.rs:91-103 | every tick adds the wheels' whole travel since the movement began, so travel is counted again on each tick | a turn whose left wheel moves d in one tick and stands still the next: the heading grows by 4d/w instead of 2d/w | add only the travel since the previous tick | not executed | Chassis.OdometryRecountsDisplacement | ChassisIntended.TurnCompletesAtTarget |
| software/photo.py:22-54 | numbering starts at `get_last_number`, the largest number already saved, so the first photo of a session is saved under the newest existing name | run from `/home/tima/rubbish`, so that the relative `paper/paper{n}.jpg` of photo.py:51 is the directory photo.py:16 lists, holding `paper0.jpg` and `paper3.jpg`: the first photo is saved as `paper3.jpg`, replacing it | start at one past the largest number, as `take_samples.py` does | not executed | Photo.FirstCaptureOverwrites | Photo.NextCaptureIsFresh |

=== FILE: chassis.dfy ===
/** The differential-drive chassis (`Chassis` of the `chassis` crate). It owns
    two position-controlled wheels, turns an atomic movement into per-wheel
    position targets, integrates a pose estimate on every tick, and forgets
    the movement once both wheels report their targets reached.

    The chassis is generic over its wheels, as the source is over any
    `ChassisMotor`: the wheel's tick, position, position target and
    "target reached" predicate are supplied as a `WheelOps` record. */
module Chassis {
  import opened Panics
  import opened Libm

  datatype ChassisSpeed = ChassisSpeed(linear: real, angular: real)

  /** The pose estimate: `linear` is (x, y), `angular` the heading, which the
      odometry below accumulates in radians. */
  datatype ChassisPosition = ChassisPosition(linear: (real, real), angular: real)

  const Origin := ChassisPosition((0.0, 0.0), 0.0)

  /** One indivisible motion: a straight drive by a distance, or an in-place
      turn by an angle in degrees. */
  datatype AtomicMovement = Linear(distance: real) | Angular(degrees: real)

  /** The movement in flight and the wheel positions when it was issued. */
  datatype ChassisMovement = ChassisMovement(movement: AtomicMovement, start: (real, real))

  /** What the chassis needs from a wheel. A wheel's tick may panic. */
  datatype WheelOps<!W> = WheelOps(
    update: (W, real) -> Result<W>,
    position: W -> real,
    setPosition: (W, real) -> W,
    reached: W -> bool)

  datatype Chassis<W> = Chassis(
    wheelsDistance: real,
    speed: ChassisSpeed,
    currentMovement: Option<ChassisMovement>,
    position: ChassisPosition,
    left: W,
    right: W)

  /** `Chassis::new`: at the origin, with zero speed and nothing in flight. */
  function New<W>(left: W, right: W, wheelsDistance: real): (c: Chassis<W>)
    ensures c.position == Origin
    ensures c.speed == ChassisSpeed(0.0, 0.0)
    ensures c.currentMovement.None?
    ensures c.left == left && c.right == right && c.wheelsDistance == wheelsDistance
  {
    Chassis(wheelsDistance, ChassisSpeed(0.0, 0.0), None, Origin, left, right)
  }

  /** `get_wheel_positions`: left first, then right. */
  function WheelPositions<W>(c: Chassis<W>, ops: WheelOps<W>): (p: (real, real))
    ensures p.0 == ops.position(c.left) && p.1 == ops.position(c.right)
  {
    (ops.position(c.left), ops.position(c.right))
  }

  /** `is_target_reached`: both wheels report reached. */
  function IsTargetReached<W>(c: Chassis<W>, ops: WheelOps<W>): (reached: bool)
    ensures reached <==> ops.reached(c.left) && ops.reached(c.right)
  {
    ops.reached(c.left) && ops.reached(c.right)
  }

  /** The pose after one tick of odometry, given the wheel positions measured
      in that tick. `start` is the position when the movement was issued and
      is never refreshed, so each tick adds the whole displacement since the
      movement began, not the displacement of that tick. */
  function Integrate(pose: ChassisPosition, m: ChassisMovement, wheels: (real, real), wheelsDistance: real, libm: Libm)
    : (r: ChassisPosition)
    requires wheelsDistance != 0.0
    ensures m.movement.Linear? ==>
      && r.linear.0 == pose.linear.0 + libm.cosf(pose.angular) * (wheels.0 - m.start.0)
      && r.linear.1 == pose.linear.1 + libm.sinf(pose.angular) * (wheels.1 - m.start.1)
      && r.angular == pose.angular
    ensures m.movement.Angular? ==>
      && r.linear == pose.linear
      && (r.angular - pose.angular) * wheelsDistance == 2.0 * (wheels.0 - m.start.0)
  {
    var travelled := (wheels.0 - m.start.0, wheels.1 - m.start.1);
    match m.movement
    case Linear(_) =>
      ChassisPosition(
        (pose.linear.0 + libm.cosf(pose.angular) * travelled.0,
         pose.linear.1 + libm.sinf(pose.angular) * travelled.1),
        pose.angular)
    case Angular(_) =>
      pose.(angular := pose.angular + (travelled.0 * 2.0) / wheelsDistance)
  }

  /** `Update::update`: tick both wheels (left first), then, if a movement is
      in flight, integrate the pose and drop the movement when both wheels
      report reached. */
  function Update<W>(c: Chassis<W>, ops: WheelOps<W>, libm: Libm, dt: real): (r: Result<Chassis<W>>)
    requires c.wheelsDistance != 0.0
    ensures ops.update(c.left, dt).Panic? ==> r == Panic(ops.update(c.left, dt).reason)
    ensures ops.update(c.left, dt).Ok? && ops.update(c.right, dt).Panic? ==> r == Panic(ops.update(c.right, dt).reason)
    ensures r.Ok? <==> ops.update(c.left, dt).Ok? && ops.update(c.right, dt).Ok?
    ensures r.Ok? ==>
      && r.value.left == ops.update(c.left, dt).value
      && r.value.right == ops.update(c.right, dt).value
      && r.value.wheelsDistance == c.wheelsDistance
      && r.value.speed == c.speed
    ensures r.Ok? && c.currentMovement.None? ==>
      r.value.position == c.position && r.value.currentMovement.None?
    ensures r.Ok? && c.currentMovement.Some? ==>
      && r.value.position == Integrate(c.position, c.currentMovement.value, WheelPositions(r.value, ops), c.wheelsDistance, libm)
      && (r.value.currentMovement.None? <==> IsTargetReached(r.value, ops))
      && (r.value.currentMovement.Some? ==> r.value.currentMovement == c.currentMovement)
  {
    var left :- ops.update(c.left, dt);
    var right :- ops.update(c.right, dt);
    var ticked := c.(left := left, right := right);
    match c.currentMovement
    case None => Ok(ticked)
    case Some(m) =>
      var pose := Integrate(c.position, m, WheelPositions(ticked, ops), c.wheelsDistance, libm);
      var moved := ticked.(position := pose);
      Ok(if IsTargetReached(moved, ops) then moved.(currentMovement := None) else moved)
  }

  /** `SetSpeed::set_speed`: only the stored cruise speed changes. */
  function SetSpeed<W>(c: Chassis<W>, speed: ChassisSpeed): (r: Chassis<W>)
    ensures r.speed == speed
    ensures r == c.(speed := speed)
  {
    c.(speed := speed)
  }

  /** The arc each wheel travels for an in-place turn by `degrees`. */
  function TurnArc(degrees: real, wheelsDistance: real): (arc: real)
    ensures degrees == 360.0 ==> arc == Pi * wheelsDistance
    ensures degrees == 0.0 ==> arc == 0.0
  {
    ToRadians(degrees) * (wheelsDistance / 2.0)
  }

  /** The position targets `move_atomic` gives the wheels, from their current
      positions: a straight drive moves both by the distance, a turn moves
      them by equal and opposite arcs. */
  function WheelTargets(movement: AtomicMovement, current: (real, real), wheelsDistance: real): (t: (real, real))
    ensures movement.Linear? ==> t.0 - current.0 == movement.distance && t.1 - current.1 == movement.distance
    ensures movement.Angular? ==>
      && t.0 - current.0 == TurnArc(movement.degrees, wheelsDistance)
      && t.1 - current.1 == -(t.0 - current.0)
  {
    match movement
    case Linear(distance) => (current.0 + distance, current.1 + distance)
    case Angular(degrees) =>
      var increment := TurnArc(degrees, wheelsDistance);
      (current.0 + increment, current.1 - increment)
  }

  /** `MoveAtomic::move_atomic`: replace whatever was in flight, remember the
      wheel positions of this moment, and set the wheel targets. The pose and
      the speed do not change. */
  function MoveAtomic<W>(c: Chassis<W>, ops: WheelOps<W>, movement: AtomicMovement): (r: Chassis<W>)
    ensures r.currentMovement == Some(ChassisMovement(movement, WheelPositions(c, ops)))
    ensures var t := WheelTargets(movement, WheelPositions(c, ops), c.wheelsDistance);
      r.left == ops.setPosition(c.left, t.0) && r.right == ops.setPosition(c.right, t.1)
    ensures r.position == c.position && r.speed == c.speed && r.wheelsDistance == c.wheelsDistance
  {
    var current := WheelPositions(c, ops);
    var targets := WheelTargets(movement, current, c.wheelsDistance);
    c.(currentMovement := Some(ChassisMovement(movement, current)),
       left := ops.setPosition(c.left, targets.0),
       right := ops.setPosition(c.right, targets.1))
  }

  /** An atomic turn, once the left wheel has travelled exactly its target
      arc, adds the angle in radians to the heading: the degree-to-radian
      conversion of `move_atomic` and the odometry agree. */
  lemma TurnOdometryInRadians(pose: ChassisPosition, degrees: real, start: (real, real), wheelsDistance: real, libm: Libm)
    requires wheelsDistance != 0.0
    ensures var arrived := WheelTargets(Angular(degrees), start, wheelsDistance);
      Integrate(pose, ChassisMovement(Angular(degrees), start), arrived, wheelsDistance, libm).angular
        == pose.angular + ToRadians(degrees)
  {
    var arrived := WheelTargets(Angular(degrees), start, wheelsDistance);
    var r := Integrate(pose, ChassisMovement(Angular(degrees), start), arrived, wheelsDistance, libm);
    assert (r.angular - pose.angular) * wheelsDistance == ToRadians(degrees) * wheelsDistance;
  }

  /** A straight drive, once both wheels have travelled exactly to the
      targets `move_atomic` set, moves the pose by the distance along the
      heading, for every heading, and leaves the heading alone. */
  lemma DriveOdometryAlongHeading(pose: ChassisPosition, distance: real, start: (real, real), wheelsDistance: real, libm: Libm)
    requires wheelsDistance != 0.0
    ensures var arrived := WheelTargets(Linear(distance), start, wheelsDistance);
      var r := Integrate(pose, ChassisMovement(Linear(distance), start), arrived, wheelsDistance, libm);
      && r.linear.0 == pose.linear.0 + libm.cosf(pose.angular) * distance
      && r.linear.1 == pose.linear.1 + libm.sinf(pose.angular) * distance
      && r.angular == pose.angular
  {
    var arrived := WheelTargets(Linear(distance), start, wheelsDistance);
    assert arrived.0 - start.0 == distance && arrived.1 - start.1 == distance;
  }

  /** The odometry defect as written: during a turn, a wheel that travels
      `d` in one tick and then stands still for a tick is counted twice, so
      the heading grows by twice the angle actually turned. */
  lemma OdometryRecountsDisplacement(pose: ChassisPosition, degrees: real, start: (real, real), wheels: (real, real),
                                     wheelsDistance: real, libm: Libm)
    requires wheelsDistance != 0.0
    ensures var m := ChassisMovement(Angular(degrees), start);
      var once := Integrate(pose, m, wheels, wheelsDistance, libm);
      var twice := Integrate(once, m, wheels, wheelsDistance, libm);
      && (once.angular - pose.angular) * wheelsDistance == 2.0 * (wheels.0 - start.0)
      && (twice.angular - pose.angular) * wheelsDistance == 4.0 * (wheels.0 - start.0)
  {
  }
}

=== FILE: chassis_intended.dfy ===
/** The corrected chassis odometry: each tick integrates the wheel travel
    since the previous tick, not since the movement began, so that no travel
    is counted twice.
    The only change from `Chassis.Update` is that the movement's recorded
    wheel positions are refreshed on every tick. */
module ChassisIntended {
  import opened Panics
  import opened Libm
  import opened Chassis
  import C = Chassis

  /** `Chassis.Update` with the reference positions moved to the positions
      just measured, so that the next tick sees only its own travel. */
  function UpdateIncremental<W>(c: C.Chassis<W>, ops: WheelOps<W>, libm: Libm, dt: real): (r: Result<C.Chassis<W>>)
    requires c.wheelsDistance != 0.0
    ensures r.Ok? <==> C.Update(c, ops, libm, dt).Ok?
    ensures r.Ok? ==>
      var asWritten := C.Update(c, ops, libm, dt).value;
      && r.value.position == asWritten.position
      && r.value.left == asWritten.left && r.value.right == asWritten.right
      && r.value.wheelsDistance == c.wheelsDistance
      && (r.value.currentMovement.None? <==> asWritten.currentMovement.None?)
      && (r.value.currentMovement.Some? ==>
            r.value.currentMovement == Some(ChassisMovement(c.currentMovement.value.movement, WheelPositions(r.value, ops))))
  {
    var ticked :- C.Update(c, ops, libm, dt);
    match ticked.currentMovement
    case None => Ok(ticked)
    case Some(m) => Ok(ticked.(currentMovement := Some(m.(start := WheelPositions(ticked, ops)))))
  }

  /** The pose after a run of ticks of one movement, given the wheel
      positions measured on each tick, with the reference refreshed each
      time. */
  function IntegrateSteps(pose: ChassisPosition, movement: AtomicMovement, start: (real, real),
                          readings: seq<(real, real)>, wheelsDistance: real, libm: Libm): ChassisPosition
    requires wheelsDistance != 0.0
    decreases |readings|
  {
    if readings == [] then pose
    else
      var next := Integrate(pose, ChassisMovement(movement, start), readings[0], wheelsDistance, libm);
      IntegrateSteps(next, movement, readings[0], readings[1..], wheelsDistance, libm)
  }

  function LastReading(start: (real, real), readings: seq<(real, real)>): (real, real)
  {
    if readings == [] then start else readings[|readings| - 1]
  }

  /** With incremental odometry a turn's heading change depends only on
      where the left wheel ends up, however the travel was split into
      ticks. */
  lemma {:induction false} TurnTelescopes(pose: ChassisPosition, degrees: real, start: (real, real),
                                          readings: seq<(real, real)>, wheelsDistance: real, libm: Libm)
    requires wheelsDistance != 0.0
    ensures var r := IntegrateSteps(pose, Angular(degrees), start, readings, wheelsDistance, libm);
      && r.linear == pose.linear
      && (r.angular - pose.angular) * wheelsDistance == 2.0 * (LastReading(start, readings).0 - start.0)
    decreases |readings|
  {
    if readings != [] {
      var next := Integrate(pose, ChassisMovement(Angular(degrees), start), readings[0], wheelsDistance, libm);
      TurnTelescopes(next, degrees, readings[0], readings[1..], wheelsDistance, libm);
      assert LastReading(readings[0], readings[1..]) == LastReading(start, readings);
    }
  }

  /** Likewise a straight drive moves the pose by the wheels' total travel
      along the (unchanged) heading. */
  lemma {:induction false} DriveTelescopes(pose: ChassisPosition, distance: real, start: (real, real),
                                           readings: seq<(real, real)>, wheelsDistance: real, libm: Libm)
    requires wheelsDistance != 0.0
    ensures var last := LastReading(start, readings);
      IntegrateSteps(pose, Linear(distance), start, readings, wheelsDistance, libm)
      == Along(pose, libm, (last.0 - start.0, last.1 - start.1))
    decreases |readings|
  {
    var last := LastReading(start, readings);
    if readings == [] {
      AlongNowhere(pose, libm, (last.0 - start.0, last.1 - start.1));
    } else {
      var m := ChassisMovement(Linear(distance), start);
      var next := Integrate(pose, m, readings[0], wheelsDistance, libm);
      var now, later := (readings[0].0 - start.0, readings[0].1 - start.1), (last.0 - readings[0].0, last.1 - readings[0].1);
      DriveTelescopes(next, distance, readings[0], readings[1..], wheelsDistance, libm);
      assert LastReading(readings[0], readings[1..]) == last;
      DriveStepIsAlong(pose, m, readings[0], wheelsDistance, libm);
      AlongAdds(pose, libm, now, later);
      assert (now.0 + later.0, now.1 + later.1) == (last.0 - start.0, last.1 - start.1);
    }
  }

  /** One odometry step of a drive moves the pose along the heading by each
      wheel's travel. */
  lemma DriveStepIsAlong(pose: ChassisPosition, m: ChassisMovement, wheels: (real, real), wheelsDistance: real, libm: Libm)
    requires wheelsDistance != 0.0 && m.movement.Linear?
    ensures Integrate(pose, m, wheels, wheelsDistance, libm) == Along(pose, libm, (wheels.0 - m.start.0, wheels.1 - m.start.1))
  {
    var r, a := Integrate(pose, m, wheels, wheelsDistance, libm), Along(pose, libm, (wheels.0 - m.start.0, wheels.1 - m.start.1));
    assert r.linear.0 == a.linear.0 && r.linear.1 == a.linear.1;
  }

  /** No travel leaves the pose where it is. */
  lemma AlongNowhere(p: ChassisPosition, libm: Libm, travel: (real, real))
    requires travel.0 == 0.0 && travel.1 == 0.0
    ensures Along(p, libm, travel) == p
  {
    var a := Along(p, libm, travel);
    assert a.linear.0 == p.linear.0 && a.linear.1 == p.linear.1;
  }

  /** Travel along the heading adds up, since it does not turn the pose. */
  lemma AlongAdds(p: ChassisPosition, libm: Libm, first: (real, real), second: (real, real))
    ensures Along(Along(p, libm, first), libm, second) == Along(p, libm, (first.0 + second.0, first.1 + second.1))
  {
    var cos, sin := libm.cosf(p.angular), libm.sinf(p.angular);
    var a, b := Along(Along(p, libm, first), libm, second), Along(p, libm, (first.0 + second.0, first.1 + second.1));
    assert cos * first.0 + cos * second.0 == cos * (first.0 + second.0);
    assert sin * first.1 + sin * second.1 == sin * (first.1 + second.1);
    assert a.linear.0 == b.linear.0 && a.linear.1 == b.linear.1;
  }

  /** The chassis after one incremental tick per tick length, in order,
      with the wheel positions measured on each tick; the first panic ends
      the run. */
  function RunIncremental<W>(c: C.Chassis<W>, ops: WheelOps<W>, libm: Libm, dts: seq<real>)
    : (r: Result<(C.Chassis<W>, seq<(real, real)>)>)
    requires c.wheelsDistance != 0.0
    ensures r.Ok? ==> r.value.0.wheelsDistance == c.wheelsDistance && |r.value.1| == |dts|
    ensures r.Ok? && dts != [] ==> r.value.1[|dts| - 1] == WheelPositions(r.value.0, ops)
    decreases |dts|
  {
    if dts == [] then Ok((c, []))
    else
      var next :- UpdateIncremental(c, ops, libm, dts[0]);
      var rest :- RunIncremental(next, ops, libm, dts[1..]);
      Ok((rest.0, [WheelPositions(next, ops)] + rest.1))
  }

  /** With nothing in flight, a run of ticks moves only the wheels: the
      pose stays where it was and no movement appears. */
  lemma {:induction false} IdleRunKeepsPose<W>(c: C.Chassis<W>, ops: WheelOps<W>, libm: Libm, dts: seq<real>)
    requires c.wheelsDistance != 0.0 && c.currentMovement.None?
    requires RunIncremental(c, ops, libm, dts).Ok?
    ensures RunIncremental(c, ops, libm, dts).value.0.currentMovement.None?
    ensures RunIncremental(c, ops, libm, dts).value.0.position == c.position
    decreases |dts|
  {
    if dts != [] {
      var next := UpdateIncremental(c, ops, libm, dts[0]).value;
      IdleRunKeepsPose(next, ops, libm, dts[1..]);
    }
  }

  /** A run of incremental ticks during which the movement stays in flight
      integrates the pose step by step over the measured wheel positions,
      each step from the previous tick's positions. */
  lemma {:induction false} RunIsIntegrateSteps<W>(c: C.Chassis<W>, ops: WheelOps<W>, libm: Libm, dts: seq<real>)
    requires c.wheelsDistance != 0.0 && c.currentMovement.Some?
    requires RunIncremental(c, ops, libm, dts).Ok?
    requires RunIncremental(c, ops, libm, dts).value.0.currentMovement.Some?
    ensures var run := RunIncremental(c, ops, libm, dts).value;
      var m := c.currentMovement.value;
      run.0.position == IntegrateSteps(c.position, m.movement, m.start, run.1, c.wheelsDistance, libm)
    decreases |dts|
  {
    if dts != [] {
      var m := c.currentMovement.value;
      var next := UpdateIncremental(c, ops, libm, dts[0]).value;
      var rest := RunIncremental(next, ops, libm, dts[1..]).value;
      assert RunIncremental(c, ops, libm, dts).value == (rest.0, [WheelPositions(next, ops)] + rest.1);
      if next.currentMovement.None? {
        IdleRunKeepsPose(next, ops, libm, dts[1..]);
        assert false;
      }
      var asWritten := C.Update(c, ops, libm, dts[0]).value;
      assert WheelPositions(asWritten, ops) == WheelPositions(next, ops);
      assert next.position == Integrate(c.position, m, WheelPositions(next, ops), c.wheelsDistance, libm);
      RunIsIntegrateSteps(next, ops, libm, dts[1..]);
      assert ([WheelPositions(next, ops)] + rest.1)[1..] == rest.1;
    }
  }

  /** So a turn that is still in flight after a run of ticks has changed
      the heading by exactly the left wheel's travel since the turn was
      issued, however the ticks fell. */
  lemma TurnRunHeading<W>(c: C.Chassis<W>, ops: WheelOps<W>, libm: Libm, dts: seq<real>, degrees: real)
    requires c.wheelsDistance != 0.0 && c.currentMovement.Some? && c.currentMovement.value.movement == Angular(degrees)
    requires dts != [] && RunIncremental(c, ops, libm, dts).Ok?
    requires RunIncremental(c, ops, libm, dts).value.0.currentMovement.Some?
    ensures var final := RunIncremental(c, ops, libm, dts).value.0;
      && final.position.linear == c.position.linear
      && (final.position.angular - c.position.angular) * c.wheelsDistance
         == 2.0 * (ops.position(final.left) - c.currentMovement.value.start.0)
  {
    var run := RunIncremental(c, ops, libm, dts).value;
    var m := c.currentMovement.value;
    RunIsIntegrateSteps(c, ops, libm, dts);
    TurnTelescopes(c.position, degrees, m.start, run.1, c.wheelsDistance, libm);
    assert LastReading(m.start, run.1) == WheelPositions(run.0, ops);
  }

  /** Likewise a drive still in flight has moved the pose along the
      heading by each wheel's travel since the drive was issued. */
  lemma DriveRunPosition<W>(c: C.Chassis<W>, ops: WheelOps<W>, libm: Libm, dts: seq<real>, distance: real)
    requires c.wheelsDistance != 0.0 && c.currentMovement.Some? && c.currentMovement.value.movement == Linear(distance)
    requires dts != [] && RunIncremental(c, ops, libm, dts).Ok?
    requires RunIncremental(c, ops, libm, dts).value.0.currentMovement.Some?
    ensures var final := RunIncremental(c, ops, libm, dts).value.0;
      var start := c.currentMovement.value.start;
      final.position == Along(c.position, libm, (ops.position(final.left) - start.0, ops.position(final.right) - start.1))
  {
    var run := RunIncremental(c, ops, libm, dts).value;
    var m := c.currentMovement.value;
    RunIsIntegrateSteps(c, ops, libm, dts);
    DriveTelescopes(c.position, distance, m.start, run.1, c.wheelsDistance, libm);
    assert LastReading(m.start, run.1) == WheelPositions(run.0, ops);
  }

  /** Along a run that keeps the movement in flight, the movement keeps its
      kind, and its reference positions are the last reading taken. */
  lemma {:induction false} InFlightRunKeepsMovement<W>(c: C.Chassis<W>, ops: WheelOps<W>, libm: Libm, dts: seq<real>)
    requires c.wheelsDistance != 0.0 && c.currentMovement.Some?
    requires RunIncremental(c, ops, libm, dts).Ok?
    requires RunIncremental(c, ops, libm, dts).value.0.currentMovement.Some?
    ensures var run := RunIncremental(c, ops, libm, dts).value;
      var m := c.currentMovement.value;
      run.0.currentMovement == Some(ChassisMovement(m.movement, LastReading(m.start, run.1)))
    decreases |dts|
  {
    if dts != [] {
      var next := UpdateIncremental(c, ops, libm, dts[0]).value;
      var rest := RunIncremental(next, ops, libm, dts[1..]).value;
      assert RunIncremental(c, ops, libm, dts).value == (rest.0, [WheelPositions(next, ops)] + rest.1);
      if next.currentMovement.None? {
        IdleRunKeepsPose(next, ops, libm, dts[1..]);
        assert false;
      }
      InFlightRunKeepsMovement(next, ops, libm, dts[1..]);
      assert LastReading(WheelPositions(next, ops), rest.1)
        == LastReading(c.currentMovement.value.start, [WheelPositions(next, ops)] + rest.1);
    }
  }

  /** One more reading at the end of a run is one more odometry step, taken
      from the reading before it. */
  lemma {:induction false} IntegrateStepsSnoc(pose: ChassisPosition, movement: AtomicMovement, start: (real, real),
                                              readings: seq<(real, real)>, reading: (real, real),
                                              wheelsDistance: real, libm: Libm)
    requires wheelsDistance != 0.0
    ensures IntegrateSteps(pose, movement, start, readings + [reading], wheelsDistance, libm)
      == Integrate(IntegrateSteps(pose, movement, start, readings, wheelsDistance, libm),
                   ChassisMovement(movement, LastReading(start, readings)), reading, wheelsDistance, libm)
    decreases |readings|
  {
    if readings != [] {
      var next := Integrate(pose, ChassisMovement(movement, start), readings[0], wheelsDistance, libm);
      assert (readings + [reading])[1..] == readings[1..] + [reading];
      IntegrateStepsSnoc(next, movement, readings[0], readings[1..], reading, wheelsDistance, libm);
      assert LastReading(readings[0], readings[1..]) == LastReading(start, readings);
    }
  }

  /** A run that keeps the movement in flight, followed by one more tick
      that may or may not finish it, integrates the pose step by step over
      the run's readings and then the last tick's. */
  lemma RunThenTickIsIntegrateSteps<W>(c: C.Chassis<W>, ops: WheelOps<W>, libm: Libm, dts: seq<real>, dt: real)
    requires c.wheelsDistance != 0.0 && c.currentMovement.Some?
    requires RunIncremental(c, ops, libm, dts).Ok?
    requires RunIncremental(c, ops, libm, dts).value.0.currentMovement.Some?
    requires UpdateIncremental(RunIncremental(c, ops, libm, dts).value.0, ops, libm, dt).Ok?
    ensures var run := RunIncremental(c, ops, libm, dts).value;
      var last := UpdateIncremental(run.0, ops, libm, dt).value;
      var m := c.currentMovement.value;
      && last.position == IntegrateSteps(c.position, m.movement, m.start, run.1 + [WheelPositions(last, ops)], c.wheelsDistance, libm)
      && LastReading(m.start, run.1 + [WheelPositions(last, ops)]) == WheelPositions(last, ops)
  {
    var run := RunIncremental(c, ops, libm, dts).value;
    var m := c.currentMovement.value;
    RunIsIntegrateSteps(c, ops, libm, dts);
    InFlightRunKeepsMovement(c, ops, libm, dts);
    var last := UpdateIncremental(run.0, ops, libm, dt).value;
    var asWritten := C.Update(run.0, ops, libm, dt).value;
    assert WheelPositions(asWritten, ops) == WheelPositions(last, ops);
    IntegrateStepsSnoc(c.position, m.movement, m.start, run.1, WheelPositions(last, ops), c.wheelsDistance, libm);
  }

  /** The pose `p` turned in place by the heading change that a left-wheel
      travel of `travel` makes on a track `wheelsDistance` wide. */
  function Turned(p: ChassisPosition, travel: real, wheelsDistance: real): ChassisPosition
    requires wheelsDistance != 0.0
  {
    p.(angular := p.angular + 2.0 * travel / wheelsDistance)
  }

  /** The pose reached from `p` when the left wheel has travelled `travel.0`
      and the right wheel `travel.1` along the heading. */
  function Along(p: ChassisPosition, libm: Libm, travel: (real, real)): ChassisPosition
  {
    ChassisPosition((p.linear.0 + libm.cosf(p.angular) * travel.0, p.linear.1 + libm.sinf(p.angular) * travel.1), p.angular)
  }

  /** The pose `distance` ahead of `p` along its heading. */
  function Ahead(p: ChassisPosition, libm: Libm, distance: real): ChassisPosition
  {
    Along(p, libm, (distance, distance))
  }

  lemma DivideOut(x: real, w: real, y: real)
    requires w != 0.0 && x * w == y
    ensures x == y / w
  {
  }

  /** A turn integrated tick by tick is the start pose turned by the left
      wheel's total travel. */
  lemma TurnStepsAlong(pose: ChassisPosition, degrees: real, start: (real, real),
                       readings: seq<(real, real)>, wheelsDistance: real, libm: Libm)
    requires wheelsDistance != 0.0
    ensures IntegrateSteps(pose, Angular(degrees), start, readings, wheelsDistance, libm)
      == Turned(pose, LastReading(start, readings).0 - start.0, wheelsDistance)
  {
    var r := IntegrateSteps(pose, Angular(degrees), start, readings, wheelsDistance, libm);
    var travel := LastReading(start, readings).0 - start.0;
    TurnTelescopes(pose, degrees, start, readings, wheelsDistance, libm);
    DivideOut(r.angular - pose.angular, wheelsDistance, 2.0 * travel);
  }

  /** A corrected turn, ticked while in flight and then once more, whether
      or not that last tick finishes it, has changed the heading by twice
      the left wheel's travel since the turn was issued, over the track
      width, and has not moved the chassis. */
  lemma TurnFinishingRun<W>(c: C.Chassis<W>, ops: WheelOps<W>, libm: Libm, dts: seq<real>, dt: real, degrees: real)
    requires c.wheelsDistance != 0.0 && c.currentMovement.Some? && c.currentMovement.value.movement == Angular(degrees)
    requires RunIncremental(c, ops, libm, dts).Ok?
    requires RunIncremental(c, ops, libm, dts).value.0.currentMovement.Some?
    requires UpdateIncremental(RunIncremental(c, ops, libm, dts).value.0, ops, libm, dt).Ok?
    ensures var last := UpdateIncremental(RunIncremental(c, ops, libm, dts).value.0, ops, libm, dt).value;
      last.position == Turned(c.position, ops.position(last.left) - c.currentMovement.value.start.0, c.wheelsDistance)
  {
    var run := RunIncremental(c, ops, libm, dts).value;
    var last := UpdateIncremental(run.0, ops, libm, dt).value;
    RunThenTickIsIntegrateSteps(c, ops, libm, dts, dt);
    TurnStepsAlong(c.position, degrees, c.currentMovement.value.start, run.1 + [WheelPositions(last, ops)], c.wheelsDistance, libm);
  }

  /** Likewise a corrected drive, ticked while in flight and then once
      more, has moved the pose along the unchanged heading by each wheel's
      travel since the drive was issued. */
  lemma DriveFinishingRun<W>(c: C.Chassis<W>, ops: WheelOps<W>, libm: Libm, dts: seq<real>, dt: real, distance: real)
    requires c.wheelsDistance != 0.0 && c.currentMovement.Some? && c.currentMovement.value.movement == Linear(distance)
    requires RunIncremental(c, ops, libm, dts).Ok?
    requires RunIncremental(c, ops, libm, dts).value.0.currentMovement.Some?
    requires UpdateIncremental(RunIncremental(c, ops, libm, dts).value.0, ops, libm, dt).Ok?
    ensures var last := UpdateIncremental(RunIncremental(c, ops, libm, dts).value.0, ops, libm, dt).value;
      var start := c.currentMovement.value.start;
      last.position == Along(c.position, libm, (ops.position(last.left) - start.0, ops.position(last.right) - start.1))
  {
    var run := RunIncremental(c, ops, libm, dts).value;
    var last := UpdateIncremental(run.0, ops, libm, dt).value;
    RunThenTickIsIntegrateSteps(c, ops, libm, dts, dt);
    DriveTelescopes(c.position, distance, c.currentMovement.value.start, run.1 + [WheelPositions(last, ops)], c.wheelsDistance, libm);
  }

  /** The left-wheel target `move_atomic` sets for a turn is the arc of the
      angle past where the wheel stood; travelling it turns the pose by the
      angle, in radians. */
  lemma TurnArcTurnsByAngle(p: ChassisPosition, degrees: real, current: (real, real), wheelsDistance: real)
    requires wheelsDistance != 0.0
    ensures WheelTargets(Angular(degrees), current, wheelsDistance).0 - current.0 == TurnArc(degrees, wheelsDistance)
    ensures Turned(p, TurnArc(degrees, wheelsDistance), wheelsDistance) == p.(angular := p.angular + ToRadians(degrees))
  {
    assert 2.0 * TurnArc(degrees, wheelsDistance) / wheelsDistance == ToRadians(degrees);
  }

  /** So, corrected, a turn in flight as `move_atomic` issued it (from the
      wheel positions `start` of that moment) whose last tick reads the left
      wheel at the target `move_atomic` set has turned the chassis in place
      by exactly the angle, in radians, however many ticks it took. */
  lemma TurnCompletesAtTarget<W>(c: C.Chassis<W>, ops: WheelOps<W>, libm: Libm, dts: seq<real>, dt: real,
                                 degrees: real, start: (real, real))
    requires c.wheelsDistance != 0.0 && c.currentMovement == Some(ChassisMovement(Angular(degrees), start))
    requires RunIncremental(c, ops, libm, dts).Ok?
    requires RunIncremental(c, ops, libm, dts).value.0.currentMovement.Some?
    requires UpdateIncremental(RunIncremental(c, ops, libm, dts).value.0, ops, libm, dt).Ok?
    requires ops.position(UpdateIncremental(RunIncremental(c, ops, libm, dts).value.0, ops, libm, dt).value.left)
      == WheelTargets(Angular(degrees), start, c.wheelsDistance).0
    ensures UpdateIncremental(RunIncremental(c, ops, libm, dts).value.0, ops, libm, dt).value.position
      == c.position.(angular := c.position.angular + ToRadians(degrees))
  {
    TurnFinishingRun(c, ops, libm, dts, dt, degrees);
    TurnArcTurnsByAngle(c.position, degrees, start, c.wheelsDistance);
  }

  /** The targets `move_atomic` sets for a drive are `distance` past where
      each wheel stood. */
  lemma DriveTargets(distance: real, current: (real, real), wheelsDistance: real)
    ensures WheelTargets(Linear(distance), current, wheelsDistance) == (current.0 + distance, current.1 + distance)
  {
  }

  /** So, corrected, a drive in flight as `move_atomic` issued it (from the
      wheel positions `start` of that moment) whose last tick reads both
      wheels at their targets has moved the chassis by exactly the distance
      along its unchanged heading, however many ticks it took. */
  lemma DriveCompletesAtTarget<W>(c: C.Chassis<W>, ops: WheelOps<W>, libm: Libm, dts: seq<real>, dt: real,
                                  distance: real, start: (real, real))
    requires c.wheelsDistance != 0.0 && c.currentMovement == Some(ChassisMovement(Linear(distance), start))
    requires RunIncremental(c, ops, libm, dts).Ok?
    requires RunIncremental(c, ops, libm, dts).value.0.currentMovement.Some?
    requires UpdateIncremental(RunIncremental(c, ops, libm, dts).value.0, ops, libm, dt).Ok?
    requires WheelPositions(UpdateIncremental(RunIncremental(c, ops, libm, dts).value.0, ops, libm, dt).value, ops)
      == WheelTargets(Linear(distance), start, c.wheelsDistance)
    ensures UpdateIncremental(RunIncremental(c, ops, libm, dts).value.0, ops, libm, dt).value.position
      == Ahead(c.position, libm, distance)
  {
    DriveFinishingRun(c, ops, libm, dts, dt, distance);
    DriveTargets(distance, start, c.wheelsDistance);
  }
}

=== FILE: dc_motor.dfy ===
/** The H-bridge drivers of the `dc_motor` crate: `PwmSetSpeed` turns a speed
    percentage into a PWM duty, and `TwoPinSetDirection` drives the two
    direction pins. The pins are hardware; the model keeps what was last
    written to them. */
module DcMotor {
  import opened Panics
  import opened Machine
  import Motor

  /** `map_range` over an integer type: a linear map from one interval onto
      another, with Rust's truncating division. Division by zero panics. */
  function MapRange(from: (int, int), to: (int, int), s: int): (r: Result<int>)
    ensures r.Panic? <==> from.0 == from.1
    ensures r.Panic? ==> r.reason == DivisionByZero
    ensures r.Ok? && s == from.0 ==> r.value == to.0
    ensures r.Ok? && s == from.1 ==> r.value == to.1
    ensures r.Ok? && from.0 < from.1 && to.0 <= to.1 && from.0 <= s <= from.1 ==> to.0 <= r.value <= to.1
  {
    if from.0 == from.1 then Panic(DivisionByZero)
    else
      var num := (s - from.0) * (to.1 - to.0);
      var den := from.1 - from.0;
      assert s == from.1 ==> num == (to.1 - to.0) * den;
      MapRangeBounds(num, den, to.1 - to.0, s - from.0);
      Ok(to.0 + TruncDiv(num, den))
  }

  lemma MapRangeBounds(num: int, den: int, span: int, offset: int)
    requires den != 0
    ensures num == span * den ==> TruncDiv(num, den) == span
    ensures 0 < den && 0 <= span && 0 <= offset <= den && num == offset * span ==> 0 <= TruncDiv(num, den) <= span
  {
    if num == span * den {
      TruncDivExact(span, den);
    }
    if 0 < den && 0 <= span && 0 <= offset <= den && num == offset * span {
      assert num <= den * span by {
        MulMonotone(offset, den, span);
      }
      DivBounded(num, den, span);
    }
  }

  lemma TruncDivExact(q: int, d: int)
    requires d != 0
    ensures TruncDiv(q * d, d) == q
  {
    if 0 < d {
      if 0 <= q {
        EuclidExact(q, d);
      } else {
        assert q * d < 0;
        assert -(q * d) == (-q) * d;
        EuclidExact(-q, d);
      }
    } else {
      if 0 <= q {
        assert q * d == -(q * (-d));
        EuclidExact(q, -d);
        if q == 0 {
          assert q * d == 0;
        } else {
          assert q * d < 0;
        }
      } else {
        assert q * d == (-q) * (-d);
        EuclidExact(-q, -d);
      }
    }
  }

  lemma EuclidExact(q: int, d: int)
    requires 0 <= q && 0 < d
    ensures (q * d) / d == q
  {
    DivUnique(q * d, d, q);
  }

  lemma DivUnique(a: int, d: int, q: int)
    requires 0 < d && d * q <= a < d * q + d
    ensures a / d == q
  {
    var k := a / d;
    assert a == d * k + a % d;
    assert d * (k - q) == d * k - d * q;
    MulSmall(d, k - q);
  }

  lemma MulSmall(d: int, m: int)
    requires 0 < d && -d < d * m < d
    ensures m == 0
  {
  }

  lemma MulMonotone(a: int, b: int, c: int)
    requires 0 <= a <= b && 0 <= c
    ensures a * c <= b * c
  {
  }

  lemma DivBounded(num: int, den: int, span: int)
    requires 0 < den && 0 <= num <= den * span
    ensures 0 <= TruncDiv(num, den) <= span
  {
    var q := num / den;
    assert num == den * q + num % den;
    if q > span {
      MulMonotone(span + 1, q, den);
    }
  }

  /** A PWM output: whether it is enabled, its current duty, its full-scale
      duty, and the largest value of its duty type. */
  datatype PwmPin = PwmPin(enabled: bool, duty: nat, maxDuty: nat, dutyLimit: nat)

  datatype PwmSetSpeed = PwmSetSpeed(pin: PwmPin, minSpeed: u8)

  /** `PwmSetSpeed::new`: the pin is enabled. */
  function NewPwmSetSpeed(pin: PwmPin, minSpeed: u8): (r: PwmSetSpeed)
    ensures r.pin == pin.(enabled := true) && r.minSpeed == minSpeed
  {
    PwmSetSpeed(pin.(enabled := true), minSpeed)
  }

  /** The percentage actually applied: `speed + min_speed`, kept within
      0..100. The `u8` addition panics when it exceeds 255. */
  function EffectiveSpeed(speed: u8, minSpeed: u8): (r: Result<int>)
    ensures r.Panic? <==> speed + minSpeed > 255
    ensures r.Panic? ==> r.reason == AddOverflow
    ensures r.Ok? ==> 0 <= r.value <= 100
    ensures r.Ok? && speed + minSpeed <= 100 ==> r.value == speed + minSpeed
    ensures r.Ok? && speed + minSpeed > 100 ==> r.value == 100
  {
    var sum := speed + minSpeed;
    if sum > 255 then Panic(AddOverflow) else Ok(if sum < 100 then sum else 100)
  }

  /** `SetSpeed::set_speed`: the duty is the applied percentage of the
      full-scale duty, rounded down. The intermediate product of `map_range`
      must fit the duty type. */
  function SetSpeed(p: PwmSetSpeed, speed: u8): (r: Result<PwmSetSpeed>)
    ensures EffectiveSpeed(speed, p.minSpeed).Panic? ==> r == Panic(AddOverflow)
    ensures EffectiveSpeed(speed, p.minSpeed).Ok? ==>
      var s := EffectiveSpeed(speed, p.minSpeed).value;
      && (s * p.pin.maxDuty > p.pin.dutyLimit <==> r.Panic?)
      && (r.Panic? ==> r.reason == MulOverflow)
      && (r.Ok? ==>
            && r.value == p.(pin := p.pin.(duty := r.value.pin.duty))
            && r.value.pin.duty == s * p.pin.maxDuty / 100
            && r.value.pin.duty <= p.pin.maxDuty)
  {
    var s :- EffectiveSpeed(speed, p.minSpeed);
    if s * p.pin.maxDuty > p.pin.dutyLimit then Panic(MulOverflow)
    else
      var duty := MapRange((0, 100), (0, p.pin.maxDuty), s);
      assert duty.Ok? && 0 <= duty.value <= p.pin.maxDuty;
      Ok(p.(pin := p.pin.(duty := duty.value)))
  }

  /** A commanded speed of zero still drives the motor at `min_speed`: the
      duty is zero only when that percentage of the full scale rounds down
      to zero. */
  lemma ZeroSpeedStillDrives(p: PwmSetSpeed)
    requires p.minSpeed * p.pin.maxDuty <= p.pin.dutyLimit
    ensures SetSpeed(p, 0).Ok?
    ensures var s := if p.minSpeed < 100 then p.minSpeed else 100;
      SetSpeed(p, 0).value.pin.duty == s * p.pin.maxDuty / 100
    ensures 0 < p.minSpeed && 100 <= p.pin.maxDuty ==> SetSpeed(p, 0).value.pin.duty > 0
  {
    var s := if p.minSpeed < 100 then p.minSpeed else 100;
    assert s * p.pin.maxDuty <= p.minSpeed * p.pin.maxDuty;
  }

  /** The two direction pins, high = true. */
  datatype DirectionPins = DirectionPins(fwd: bool, back: bool)

  /** `TwoPinSetDirection::set_direction` (pin write errors are ignored, as
      in the source). */
  function SetDirection(direction: Motor.RotationDirection): (pins: DirectionPins)
    ensures pins.fwd <==> direction == Motor.Clockwise
    ensures pins.back <==> direction == Motor.Counterclockwise
    ensures !(pins.fwd && pins.back)
  {
    match direction
    case Clockwise => DirectionPins(true, false)
    case Counterclockwise => DirectionPins(false, true)
    case None => DirectionPins(false, false)
  }

  /** A stopped motor has both pins low, and only a stopped one does. */
  lemma StoppedIsBothLow(direction: Motor.RotationDirection)
    ensures SetDirection(direction) == DirectionPins(false, false) <==> direction == Motor.RotationDirection.None
  {
  }
}

=== FILE: decimal.dfy ===
/** Decimal digit strings, as the Python helpers read file names: ASCII
    '0'..'9' only. */
module Decimal {

  predicate IsDigit(c: char) {
    '0' <= c <= '9'
  }

  function DigitValue(c: char): nat
    requires IsDigit(c)
  {
    c as int - '0' as int
  }

  function DigitChar(d: nat): (c: char)
    requires d < 10
    ensures IsDigit(c) && DigitValue(c) == d
  {
    ('0' as int + d) as char
  }

  /** Every character is a digit (Python's `str.isdigit` without the
      non-emptiness it also demands). */
  predicate AllDigits(s: string) {
    forall i :: 0 <= i < |s| ==> IsDigit(s[i])
  }

  /** The base-10 value of a digit string, most significant digit first
      (Python's `int` on such a string; leading zeros are allowed). */
  function Value(s: string): nat
    requires AllDigits(s)
  {
    if s == [] then 0 else Value(s[..|s| - 1]) * 10 + DigitValue(s[|s| - 1])
  }

  /** The shortest decimal spelling of `n` (Python's `str` / `format`). */
  function Spell(n: nat): (s: string)
    ensures AllDigits(s) && |s| > 0
    decreases n
  {
    if n < 10 then [DigitChar(n)] else Spell(n / 10) + [DigitChar(n % 10)]
  }

  /** Reading back a spelled number gives the number. */
  lemma {:induction false} ValueOfSpell(n: nat)
    ensures Value(Spell(n)) == n
    decreases n
  {
    if n >= 10 {
      ValueOfSpell(n / 10);
      var s := Spell(n);
      assert s[..|s| - 1] == Spell(n / 10);
    }
  }

  /** Spelled numbers have no leading zero, except zero itself. */
  lemma {:induction false} SpellHasNoLeadingZero(n: nat)
    ensures Spell(n)[0] == '0' <==> n == 0
    decreases n
  {
    if n >= 10 {
      SpellHasNoLeadingZero(n / 10);
    }
  }
}

=== FILE: drawers_controller.dfy ===
/** The enable pins of the three drawers (`DrawerEnableControl` for a tuple
    of three output pins, in the `drawers_controller` crate). A drawer is
    picked by its index; any other index panics. Pin write errors are
    ignored, as in the source. */
module DrawersController {
  import opened Panics
  import opened Machine

  /** The three enable pins, high = true. */
  datatype EnablePins = EnablePins(p0: bool, p1: bool, p2: bool)

  const DrawerCount := 3

  function Pin(e: EnablePins, i: nat): bool
    requires i < DrawerCount
  {
    if i == 0 then e.p0 else if i == 1 then e.p1 else e.p2
  }

  function Write(e: EnablePins, id: u8, level: bool): (r: Result<EnablePins>)
    ensures r.Panic? <==> id >= DrawerCount
    ensures r.Panic? ==> r.reason == IndexOutOfBounds
    ensures r.Ok? ==> Pin(r.value, id) == level
    ensures r.Ok? ==> forall j :: 0 <= j < DrawerCount && j != id ==> Pin(r.value, j) == Pin(e, j)
  {
    match id
    case 0 => Ok(e.(p0 := level))
    case 1 => Ok(e.(p1 := level))
    case 2 => Ok(e.(p2 := level))
    case _ => Panic(IndexOutOfBounds)
  }

  /** `enable`: drive the chosen drawer's pin high. */
  function Enable(e: EnablePins, id: u8): (r: Result<EnablePins>)
    ensures r.Panic? <==> id > 2
    ensures r.Ok? ==> Pin(r.value, id)
    ensures r.Ok? ==> forall j :: 0 <= j < DrawerCount && j != id ==> Pin(r.value, j) == Pin(e, j)
  {
    Write(e, id, true)
  }

  /** `disable`: drive the chosen drawer's pin low. */
  function Disable(e: EnablePins, id: u8): (r: Result<EnablePins>)
    ensures r.Panic? <==> id > 2
    ensures r.Ok? ==> !Pin(r.value, id)
    ensures r.Ok? ==> forall j :: 0 <= j < DrawerCount && j != id ==> Pin(r.value, j) == Pin(e, j)
  {
    Write(e, id, false)
  }

  /** Enabling or disabling twice is the same as once, and disabling after
      enabling leaves the pins as disabling alone would. */
  lemma EnableDisableLaws(e: EnablePins, id: u8)
    requires id < DrawerCount
    ensures Enable(Enable(e, id).value, id) == Enable(e, id)
    ensures Disable(Disable(e, id).value, id) == Disable(e, id)
    ensures Disable(Enable(e, id).value, id) == Disable(e, id)
    ensures !Pin(Disable(Enable(e, id).value, id).value, id)
  {
  }
}

=== FILE: hist_sorted.dfy ===
/** `sort_hist`: a colour histogram, one amount per pixel value, listed as
    (amount, value) pairs from the most to the least frequent value. Python's
    `sorted(..., reverse=True)` is stable, so values with equal amounts keep
    their ascending order. Amounts are reals; NaN is left out. */
module HistSorted {

  /** One (amount, value) pair of the result. */
  datatype Bin = Bin(amount: real, value: nat)

  /** `[(y[0], x) for x, y in enumerate(hist)]`. */
  function Enumerate(hist: seq<real>): (r: seq<Bin>)
    ensures |r| == |hist|
    ensures forall i :: 0 <= i < |hist| ==> r[i] == Bin(hist[i], i)
  {
    if hist == [] then [] else Enumerate(hist[..|hist| - 1]) + [Bin(hist[|hist| - 1], |hist| - 1)]
  }

  /** `a` is listed before `b`: larger amount first, then smaller value. */
  predicate Before(a: Bin, b: Bin) {
    a.amount > b.amount || (a.amount == b.amount && a.value < b.value)
  }

  predicate Ordered(s: seq<Bin>) {
    forall i, j :: 0 <= i < j < |s| ==> Before(s[i], s[j])
  }

  /** Insert `b` after the last entry whose amount is at least its own. */
  function Insert(s: seq<Bin>, b: Bin): (r: seq<Bin>)
    ensures |r| == |s| + 1
    ensures multiset(r) == multiset(s) + multiset{b}
  {
    if s == [] then [b]
    else if s[|s| - 1].amount >= b.amount then s + [b]
    else
      assert s == s[..|s| - 1] + [s[|s| - 1]];
      Insert(s[..|s| - 1], b) + [s[|s| - 1]]
  }

  /** When `b`'s value is larger than every listed value, inserting it
      keeps the listing ordered. */
  lemma {:induction false} InsertOrdered(s: seq<Bin>, b: Bin)
    requires Ordered(s)
    requires forall i :: 0 <= i < |s| ==> s[i].value < b.value
    ensures Ordered(Insert(s, b))
    decreases |s|
  {
    if s != [] && s[|s| - 1].amount < b.amount {
      var prefix, last := s[..|s| - 1], s[|s| - 1];
      InsertOrdered(prefix, b);
      var front := Insert(prefix, b);
      forall k | 0 <= k < |front|
        ensures Before(front[k], last)
      {
        assert front[k] in multiset(front);
        if front[k] != b {
          assert front[k] in multiset(prefix);
          var m :| 0 <= m < |prefix| && prefix[m] == front[k];
          assert Before(s[m], s[|s| - 1]);
        }
      }
    }
  }

  /** `sort_hist`: insert the pairs in index order. */
  function SortHist(hist: seq<real>): (r: seq<Bin>)
    ensures |r| == |hist|
    ensures multiset(r) == multiset(Enumerate(hist))
  {
    if hist == [] then []
    else
      var n := |hist| - 1;
      assert Enumerate(hist) == Enumerate(hist[..n]) + [Bin(hist[n], n)];
      Insert(SortHist(hist[..n]), Bin(hist[n], n))
  }

  /** Every listed pair is a pair of the histogram. */
  lemma SortHistBins(hist: seq<real>)
    ensures forall i :: 0 <= i < |SortHist(hist)| ==>
      SortHist(hist)[i].value < |hist| && SortHist(hist)[i].amount == hist[SortHist(hist)[i].value]
  {
    var r := SortHist(hist);
    forall i | 0 <= i < |r|
      ensures r[i].value < |hist| && r[i].amount == hist[r[i].value]
    {
      assert r[i] in multiset(r);
      var k :| 0 <= k < |hist| && Enumerate(hist)[k] == r[i];
    }
  }

  /** The listing is ordered: amounts never increase, and equal amounts
      list their values in ascending order. */
  lemma {:induction false} SortHistOrdered(hist: seq<real>)
    ensures Ordered(SortHist(hist))
    decreases |hist|
  {
    if hist != [] {
      var n := |hist| - 1;
      var prev := SortHist(hist[..n]);
      assert SortHist(hist) == Insert(prev, Bin(hist[n], n));
      SortHistOrdered(hist[..n]);
      SortHistBins(hist[..n]);
      assert forall i :: 0 <= i < |prev| ==> prev[i].value < n;
      InsertOrdered(prev, Bin(hist[n], n));
    }
  }

  /** Every value of the histogram is listed exactly once. */
  lemma EachValueOnce(hist: seq<real>, v: nat)
    requires v < |hist|
    ensures exists i :: 0 <= i < |SortHist(hist)| && SortHist(hist)[i] == Bin(hist[v], v)
    ensures forall i, j ::
      (0 <= i < |SortHist(hist)| && 0 <= j < |SortHist(hist)| &&
       SortHist(hist)[i].value == v && SortHist(hist)[j].value == v) ==> i == j
  {
    var r := SortHist(hist);
    assert Enumerate(hist)[v] == Bin(hist[v], v);
    assert Bin(hist[v], v) in multiset(r);
    SortHistBins(hist);
    SortHistOrdered(hist);
  }

  /** Two ordered listings of the same pairs are the same listing: the
      order `Before` leaves no choice, so `SortHist` is the stable
      descending sort. */
  lemma {:induction false} OrderedIsUnique(a: seq<Bin>, b: seq<Bin>)
    requires Ordered(a) && Ordered(b) && multiset(a) == multiset(b)
    ensures a == b
    decreases |a|
  {
    assert |a| == |multiset(a)| == |multiset(b)| == |b|;
    if |a| > 0 {
      assert a[0] in multiset(b) && b[0] in multiset(a);
      assert a[0] == b[0];
      assert a == [a[0]] + a[1..] && b == [b[0]] + b[1..];
      assert multiset(a) == multiset{a[0]} + multiset(a[1..]);
      assert multiset(b) == multiset{b[0]} + multiset(b[1..]);
      assert multiset(a[1..]) == multiset(a) - multiset{a[0]};
      assert multiset(b[1..]) == multiset(b) - multiset{b[0]};
      OrderedIsUnique(a[1..], b[1..]);
    }
  }

  /** Any ordered rearrangement of the enumerated pairs is `SortHist`'s. */
  lemma SortHistIsTheSort(hist: seq<real>, s: seq<Bin>)
    requires multiset(s) == multiset(Enumerate(hist)) && Ordered(s)
    ensures s == SortHist(hist)
  {
    SortHistOrdered(hist);
    OrderedIsUnique(s, SortHist(hist));
  }
}

=== FILE: itg3205.dfy ===
/** The ITG-3205 gyroscope driver (`Itg3205` of the `itg3205` crate). The I2C
    bus is modelled as a log of the transfers the driver has made and an
    oracle that answers the n-th transfer; a transfer either succeeds,
    returning the two bytes read (ignored for a plain write), or fails with
    a bus error, which the driver returns at once. Delays are left out. */
module Itg3205 {
  import opened Machine
  import opened Itg3205Register

  /** The device's bus address. */
  const ADDRESS: u8 := 0x68

  /** Raw counts per degree per second. */
  const LsbDeg: real := 14.375

  datatype BusError = BusError(code: int)

  datatype Transfer =
    | Write(address: u8, bytes: seq<u8>)
    | WriteRead(address: u8, bytes: seq<u8>)

  datatype Reply = Ack(hi: u8, lo: u8) | Nak(error: BusError)

  datatype I2c = I2c(sent: seq<Transfer>, answer: nat -> Reply)

  /** The driver's `Result<T, E>` with `E` the bus error. */
  datatype BusResult<+T> = Done(value: T) | Failed(error: BusError)

  datatype I16x3 = I16x3(x: i16, y: i16, z: i16)

  datatype Vec3 = Vec3(x: real, y: real, z: real)

  datatype Itg3205 = Itg3205(i2c: I2c, offset: Vec3)

  /** Perform one transfer: it is logged, and the oracle's answer for its
      position in the log is the reply. */
  function Transact(bus: I2c, t: Transfer): (r: (Reply, I2c))
    ensures r.1 == bus.(sent := bus.sent + [t])
    ensures r.0 == bus.answer(|bus.sent|)
  {
    (bus.answer(|bus.sent|), bus.(sent := bus.sent + [t]))
  }

  /** `write_register`: one write of [register address, value]. */
  function WriteRegister(dev: Itg3205, register: Register, value: u8): (r: (BusResult<()>, Itg3205))
    ensures r.1 == dev.(i2c := dev.i2c.(sent := dev.i2c.sent + [Write(ADDRESS, [Addr(register), value])]))
    ensures r.0.Done? <==> dev.i2c.answer(|dev.i2c.sent|).Ack?
    ensures r.0.Failed? ==> r.0.error == dev.i2c.answer(|dev.i2c.sent|).error
  {
    var (reply, bus) := Transact(dev.i2c, Write(ADDRESS, [Addr(register), value]));
    (if reply.Ack? then Done(()) else Failed(reply.error), dev.(i2c := bus))
  }

  /** The value a successful read reply carries: big-endian, signed. */
  function Decode(reply: Reply): i16
    requires reply.Ack?
  {
    I16FromBeBytes(reply.hi, reply.lo)
  }

  /** `read_register`: write the register address, read two bytes back, and
      read them as a big-endian `i16`. */
  function ReadRegister(dev: Itg3205, register: Register): (r: (BusResult<i16>, Itg3205))
    ensures r.1 == dev.(i2c := dev.i2c.(sent := dev.i2c.sent + [WriteRead(ADDRESS, [Addr(register)])]))
    ensures r.0.Done? <==> dev.i2c.answer(|dev.i2c.sent|).Ack?
    ensures r.0.Done? ==> r.0.value == Decode(dev.i2c.answer(|dev.i2c.sent|))
    ensures r.0.Failed? ==> r.0.error == dev.i2c.answer(|dev.i2c.sent|).error
  {
    var (reply, bus) := Transact(dev.i2c, WriteRead(ADDRESS, [Addr(register)]));
    (if reply.Ack? then Done(I16FromBeBytes(reply.hi, reply.lo)) else Failed(reply.error), dev.(i2c := bus))
  }

  /** A register that holds `v` is read back as `v`. */
  lemma ReadRegisterReadsValue(dev: Itg3205, register: Register, v: i16)
    requires dev.i2c.answer(|dev.i2c.sent|) == Ack(I16ToBeBytes(v).0, I16ToBeBytes(v).1)
    ensures ReadRegister(dev, register).0 == Done(v)
  {
    BeBytesRoundTrip(v);
  }

  /** The configuration `new` writes, in order: wake up on the internal
      oscillator, sample at 1 kHz / (7 + 1), full scale +/-2000 deg/s with a
      98 Hz low-pass filter, no interrupts. */
  const InitWrites: seq<(Register, u8)> := [(PWR_MGM, 0x00), (SMPLRT_DIV, 0x07), (DLPF_FS, 0x1B), (INT_CFG, 0x00)]

  function WriteTransfer(w: (Register, u8)): Transfer
  {
    Write(ADDRESS, [Addr(w.0), w.1])
  }

  /** The transfers of a list of register writes. */
  function WriteTransfers(writes: seq<(Register, u8)>): (ts: seq<Transfer>)
    ensures |ts| == |writes|
  {
    if writes == [] then [] else [WriteTransfer(writes[0])] + WriteTransfers(writes[1..])
  }

  /** How many of the `count` answers from `from` on succeed before the
      first failure (`count` when none fails). */
  function FirstNak(answer: nat -> Reply, from: nat, count: nat): (k: nat)
    ensures k <= count
    ensures k < count ==> answer(from + k).Nak?
    decreases count
  {
    if count == 0 || answer(from).Nak? then 0 else 1 + FirstNak(answer, from + 1, count - 1)
  }

  /** The answers before the first failure all succeed. */
  lemma {:induction false} FirstNakAcks(answer: nat -> Reply, from: nat, count: nat)
    ensures forall j :: from <= j < from + FirstNak(answer, from, count) ==> answer(j).Ack?
    decreases count
  {
    if count > 0 && answer(from).Ack? {
      FirstNakAcks(answer, from + 1, count - 1);
    }
  }

  /** Every answer in [from, from + count) is a success. */
  predicate AllAck(answer: nat -> Reply, from: nat, count: nat) {
    FirstNak(answer, from, count) == count
  }

  lemma AllAckWithin(answer: nat -> Reply, from: nat, count: nat, from': nat, count': nat)
    requires AllAck(answer, from, count)
    requires from <= from' && from' + count' <= from + count
    ensures AllAck(answer, from', count')
  {
    FirstNakAcks(answer, from, count);
  }

  lemma AllAckJoin(answer: nat -> Reply, from: nat, count: nat, count': nat)
    requires AllAck(answer, from, count) && AllAck(answer, from + count, count')
    ensures AllAck(answer, from, count + count')
  {
    FirstNakAcks(answer, from, count);
    FirstNakAcks(answer, from + count, count');
  }

  /** Past a run of successes, the count of successes goes on from its end. */
  lemma {:induction false} FirstNakSkip(answer: nat -> Reply, from: nat, count: nat, rest: nat)
    requires AllAck(answer, from, count)
    ensures FirstNak(answer, from, count + rest) == count + FirstNak(answer, from + count, rest)
    decreases count
  {
    if count > 0 {
      FirstNakSkip(answer, from + 1, count - 1, rest);
    }
  }

  /** A failure within the first `count` answers is the first failure of
      any longer window too. */
  lemma {:induction false} FirstNakStops(answer: nat -> Reply, from: nat, count: nat, count': nat)
    requires FirstNak(answer, from, count) < count <= count'
    ensures FirstNak(answer, from, count') == FirstNak(answer, from, count)
    decreases count
  {
    if answer(from).Ack? {
      FirstNakStops(answer, from + 1, count - 1, count' - 1);
    }
  }

  /** How many transfers a run of `count` transfers that stops at the
      first failure makes, when `ok` of them succeed first. */
  function Made(ok: nat, count: nat): nat
    requires ok <= count
  {
    if ok < count then ok + 1 else count
  }

  lemma TransfersCons(writes: seq<(Register, u8)>, m: nat)
    requires 0 < |writes| && m < |writes|
    ensures WriteTransfers(writes[..m + 1]) == [WriteTransfer(writes[0])] + WriteTransfers(writes[1..][..m])
  {
    assert writes[..m + 1][1..] == writes[1..][..m];
  }

  /** Write a list of registers in order, stopping at the first failure. */
  function WriteAll(dev: Itg3205, writes: seq<(Register, u8)>): (r: (BusResult<()>, Itg3205))
    ensures r.1 == dev.(i2c := dev.i2c.(sent := r.1.i2c.sent))
    ensures r.0.Done? <==> AllAck(dev.i2c.answer, |dev.i2c.sent|, |writes|)
    ensures r.0.Failed? ==> Nak(r.0.error) == dev.i2c.answer(|dev.i2c.sent| + FirstNak(dev.i2c.answer, |dev.i2c.sent|, |writes|))
    decreases |writes|
  {
    if writes == [] then (Done(()), dev)
    else
      var first := WriteRegister(dev, writes[0].0, writes[0].1);
      if first.0.Failed? then first
      else
        assert FirstNak(dev.i2c.answer, |dev.i2c.sent|, |writes|)
          == 1 + FirstNak(dev.i2c.answer, |dev.i2c.sent| + 1, |writes| - 1);
        WriteAll(first.1, writes[1..])
  }

  /** The writes `WriteAll` makes: every write up to and including the first
      that fails, and none after it. */
  lemma {:induction false} WriteAllTrace(dev: Itg3205, writes: seq<(Register, u8)>)
    ensures WriteAll(dev, writes).1.i2c.sent
      == dev.i2c.sent + WriteTransfers(writes[..Made(FirstNak(dev.i2c.answer, |dev.i2c.sent|, |writes|), |writes|)])
    decreases |writes|
  {
    if writes != [] {
      var first := WriteRegister(dev, writes[0].0, writes[0].1);
      if first.0.Failed? {
        TransfersCons(writes, 0);
      } else {
        var k' := FirstNak(dev.i2c.answer, |dev.i2c.sent| + 1, |writes| - 1);
        assert FirstNak(dev.i2c.answer, |dev.i2c.sent|, |writes|) == 1 + k';
        WriteAllTrace(first.1, writes[1..]);
        TransfersCons(writes, Made(k', |writes| - 1));
      }
    }
  }

  /** The bus transfers of the configuration writes. */
  const InitTransfers: seq<Transfer> := [
    Write(0x68, [0x3E, 0x00]), Write(0x68, [0x15, 0x07]), Write(0x68, [0x16, 0x1B]), Write(0x68, [0x17, 0x00])]

  /** The transfers of a prefix of the writes are the prefix of their
      transfers. */
  lemma {:induction false} TransfersPrefix(writes: seq<(Register, u8)>, m: nat)
    requires m <= |writes|
    ensures WriteTransfers(writes[..m]) == WriteTransfers(writes)[..m]
    decreases m
  {
    if m > 0 {
      TransfersCons(writes, m - 1);
      TransfersPrefix(writes[1..], m - 1);
    }
  }

  lemma InitTransfersAreInitWrites()
    ensures WriteTransfers(InitWrites) == InitTransfers
  {
    assert Addr(PWR_MGM) == 0x3E && Addr(SMPLRT_DIV) == 0x15 && Addr(DLPF_FS) == 0x16 && Addr(INT_CFG) == 0x17;
    var w := InitWrites;
    assert WriteTransfers(w[3..4]) == [InitTransfers[3]];
    assert w[2..4][1..] == w[3..4];
    assert WriteTransfers(w[2..4]) == InitTransfers[2..4];
    assert w[1..4][1..] == w[2..4];
    assert WriteTransfers(w[1..4]) == InitTransfers[1..4];
    assert w[..4][1..] == w[1..4];
    assert w[..4] == w;
  }

  /** `Itg3205::new`: the four configuration writes, to address 0x68, in
      order; the first failure is returned and no later write is made. The
      bus is returned alongside so that the writes made can be observed. */
  function New(i2c: I2c): (r: (BusResult<Itg3205>, I2c))
    ensures r.1 == i2c.(sent := i2c.sent + InitTransfers[..Made(FirstNak(i2c.answer, |i2c.sent|, 4), 4)])
    ensures r.0.Done? <==> AllAck(i2c.answer, |i2c.sent|, 4)
    ensures r.0.Done? ==> r.0.value == Itg3205(r.1, Vec3(0.0, 0.0, 0.0))
    ensures r.0.Failed? ==> Nak(r.0.error) == i2c.answer(|i2c.sent| + FirstNak(i2c.answer, |i2c.sent|, 4))
  {
    var start := Itg3205(i2c, Vec3(0.0, 0.0, 0.0));
    var written := WriteAll(start, InitWrites);
    WriteAllTrace(start, InitWrites);
    InitTransfersAreInitWrites();
    TransfersPrefix(InitWrites, Made(FirstNak(i2c.answer, |i2c.sent|, 4), 4));
    (if written.0.Done? then Done(written.1) else Failed(written.0.error), written.1.i2c)
  }

  /** The three axis readings at answers from, from + 1 and from + 2. */
  function SampleAt(answer: nat -> Reply, from: nat): I16x3
    requires AllAck(answer, from, 3)
  {
    FirstNakAcks(answer, from, 3);
    I16x3(Decode(answer(from)), Decode(answer(from + 1)), Decode(answer(from + 2)))
  }

  const RawReads: seq<Transfer> := [
    WriteRead(ADDRESS, [Addr(GYRO_XOUT_H)]), WriteRead(ADDRESS, [Addr(GYRO_YOUT_H)]), WriteRead(ADDRESS, [Addr(GYRO_ZOUT_H)])]

  /** `read_raw`: the X, Y and Z high registers, in that order; the first
      failure is returned and the remaining reads are not made. */
  function ReadRaw(dev: Itg3205): (r: (BusResult<I16x3>, Itg3205))
    ensures r.1 == dev.(i2c := dev.i2c.(sent := dev.i2c.sent + RawReads[..Made(FirstNak(dev.i2c.answer, |dev.i2c.sent|, 3), 3)]))
    ensures r.0.Done? <==> AllAck(dev.i2c.answer, |dev.i2c.sent|, 3)
    ensures r.0.Done? ==> r.0.value == SampleAt(dev.i2c.answer, |dev.i2c.sent|)
    ensures r.0.Failed? ==> Nak(r.0.error) == dev.i2c.answer(|dev.i2c.sent| + FirstNak(dev.i2c.answer, |dev.i2c.sent|, 3))
  {
    ghost var base := |dev.i2c.sent|;
    ghost var a := dev.i2c.answer;
    var x := ReadRegister(dev, GYRO_XOUT_H);
    if x.0.Failed? then
      (Failed(x.0.error), x.1)
    else
      assert FirstNak(a, base, 3) == 1 + FirstNak(a, base + 1, 2);
      var y := ReadRegister(x.1, GYRO_YOUT_H);
      if y.0.Failed? then
        assert RawReads[..2] == [RawReads[0], RawReads[1]];
        (Failed(y.0.error), y.1)
      else
        assert FirstNak(a, base + 1, 2) == 1 + FirstNak(a, base + 2, 1);
        var z := ReadRegister(y.1, GYRO_ZOUT_H);
        assert RawReads[..3] == RawReads;
        if z.0.Failed? then
          (Failed(z.0.error), z.1)
        else
          assert FirstNak(a, base + 2, 1) == 1 + FirstNak(a, base + 3, 0);
          (Done(I16x3(x.0.value, y.0.value, z.0.value)), z.1)
  }

  /** The first `m` transfers of back-to-back raw reads: X, Y, Z, X, ... */
  function RawLog(m: nat): (ts: seq<Transfer>)
    ensures |ts| == m
  {
    if m == 0 then [] else RawLog(m - 1) + [RawReads[(m - 1) % 3]]
  }

  /** Part of one more raw read extends the log of whole reads. */
  lemma {:induction false} RawLogStep(q: nat, j: nat)
    requires j <= 3
    ensures RawLog(3 * q + j) == RawLog(3 * q) + RawReads[..j]
    decreases j
  {
    if j > 0 {
      RawLogStep(q, j - 1);
      assert (3 * q + j - 1) % 3 == j - 1;
      assert RawReads[..j] == RawReads[..j - 1] + [RawReads[j - 1]];
    }
  }

  function ToVec3(v: I16x3): Vec3
  {
    Vec3(v.x as real, v.y as real, v.z as real)
  }

  function Add(a: Vec3, b: Vec3): Vec3
  {
    Vec3(a.x + b.x, a.y + b.y, a.z + b.z)
  }

  function Scale(a: Vec3, k: real): Vec3
  {
    Vec3(a.x * k, a.y * k, a.z * k)
  }

  /** `read`: a raw reading plus the offset, in degrees per second. */
  function Read(dev: Itg3205): (r: (BusResult<Vec3>, Itg3205))
    ensures r.1 == ReadRaw(dev).1
    ensures r.0.Done? <==> ReadRaw(dev).0.Done?
    ensures r.0.Failed? ==> r.0.error == ReadRaw(dev).0.error
    ensures r.0.Done? ==>
      var raw := ToVec3(ReadRaw(dev).0.value);
      && r.0.value.x * LsbDeg == raw.x + dev.offset.x
      && r.0.value.y * LsbDeg == raw.y + dev.offset.y
      && r.0.value.z * LsbDeg == raw.z + dev.offset.z
  {
    var (raw, after) := ReadRaw(dev);
    match raw
    case Failed(e) => (Failed(e), after)
    case Done(v) =>
      var raw := ToVec3(v);
      (Done(Vec3((raw.x + dev.offset.x) / LsbDeg, (raw.y + dev.offset.y) / LsbDeg, (raw.z + dev.offset.z) / LsbDeg)), after)
  }

  /** The `count` samples read from answer `from` on, three answers each. */
  function Samples(answer: nat -> Reply, from: nat, count: nat): (s: seq<I16x3>)
    requires AllAck(answer, from, 3 * count)
    ensures |s| == count
    decreases count
  {
    if count == 0 then []
    else
      AllAckWithin(answer, from, 3 * count, from, 3 * (count - 1));
      AllAckWithin(answer, from, 3 * count, from + 3 * (count - 1), 3);
      Samples(answer, from, count - 1) + [SampleAt(answer, from + 3 * (count - 1))]
  }

  datatype Axis = X | Y | Z

  function Component(v: I16x3, axis: Axis): i16
  {
    match axis
    case X => v.x
    case Y => v.y
    case Z => v.z
  }

  function AxisSum(s: seq<I16x3>, axis: Axis): real
  {
    if s == [] then 0.0 else AxisSum(s[..|s| - 1], axis) + Component(s[|s| - 1], axis) as real
  }

  /** The component-wise sum of samples. */
  function Sum(s: seq<I16x3>): Vec3
  {
    Vec3(AxisSum(s, X), AxisSum(s, Y), AxisSum(s, Z))
  }

  lemma SumSnoc(s: seq<I16x3>, x: I16x3)
    ensures Sum(s + [x]) == Add(Sum(s), ToVec3(x))
  {
    assert (s + [x])[..|s|] == s;
    assert AxisSum(s + [x], X) == AxisSum(s, X) + x.x as real;
    assert AxisSum(s + [x], Y) == AxisSum(s, Y) + x.y as real;
    assert AxisSum(s + [x], Z) == AxisSum(s, Z) + x.z as real;
  }

  lemma SamplesSnoc(answer: nat -> Reply, from: nat, count: nat)
    requires AllAck(answer, from, 3 * (count + 1))
    ensures AllAck(answer, from, 3 * count) && AllAck(answer, from + 3 * count, 3)
    ensures Samples(answer, from, count + 1) == Samples(answer, from, count) + [SampleAt(answer, from + 3 * count)]
  {
    AllAckWithin(answer, from, 3 * (count + 1), from, 3 * count);
    AllAckWithin(answer, from, 3 * (count + 1), from + 3 * count, 3);
  }

  /** A failed read after `done` good answers is the first failure of
      the whole run of `total` answers. */
  lemma FailedSampleStops(answer: nat -> Reply, from: nat, done: nat, total: nat)
    requires done + 3 <= total && AllAck(answer, from, done) && !AllAck(answer, from + done, 3)
    ensures FirstNak(answer, from, total) == done + FirstNak(answer, from + done, 3) < total
  {
    var rest := total - done;
    assert done + rest == total;
    var k := FirstNak(answer, from + done, 3);
    assert k < 3;
    FirstNakSkip(answer, from, done, rest);
    FirstNakStops(answer, from + done, 3, rest);
    assert FirstNak(answer, from + done, rest) == k;
  }

  /** The log after a good reading of sample `i`. */
  lemma LogAfterGood(sent: seq<Transfer>, i: nat)
    ensures sent + RawLog(3 * i) + RawReads[..3] == sent + RawLog(3 * (i + 1))
  {
    RawLogStep(i, 3);
  }

  /** The log after a reading of sample `i` whose transfer `k` fails. */
  lemma LogAfterFailed(sent: seq<Transfer>, i: nat, k: nat)
    requires k < 3
    ensures sent + RawLog(3 * i) + RawReads[..k + 1] == sent + RawLog(3 * i + k + 1)
  {
    RawLogStep(i, k + 1);
  }

  /** A good reading of sample `i` extends the log, the acknowledged
      answers and the samples by one reading. */
  lemma GoodSample(dev: Itg3205, d: Itg3205, i: nat)
    requires d == dev.(i2c := dev.i2c.(sent := d.i2c.sent))
    requires d.i2c.sent == dev.i2c.sent + RawLog(3 * i)
    requires AllAck(dev.i2c.answer, |dev.i2c.sent|, 3 * i)
    requires ReadRaw(d).0.Done?
    ensures var next := ReadRaw(d).1;
      && next == dev.(i2c := dev.i2c.(sent := next.i2c.sent))
      && next.i2c.sent == dev.i2c.sent + RawLog(3 * (i + 1))
    ensures AllAck(dev.i2c.answer, |dev.i2c.sent|, 3 * (i + 1))
    ensures Samples(dev.i2c.answer, |dev.i2c.sent|, i + 1)
      == Samples(dev.i2c.answer, |dev.i2c.sent|, i) + [ReadRaw(d).0.value]
  {
    var a, base := dev.i2c.answer, |dev.i2c.sent|;
    var next := ReadRaw(d).1;
    assert next.i2c.sent == dev.i2c.sent + RawLog(3 * (i + 1)) by {
      assert next.i2c.sent == d.i2c.sent + RawReads[..3];
      LogAfterGood(dev.i2c.sent, i);
    }
    assert AllAck(a, base, 3 * (i + 1)) by {
      AllAckJoin(a, base, 3 * i, 3);
    }
    SamplesSnoc(a, base, i);
  }

  /** A failed reading of sample `i`, after `i` good ones, gives the first
      failure of the calibration. */
  lemma FailedSample(dev: Itg3205, d: Itg3205, i: nat, count: nat)
    requires i < count
    requires d.i2c.answer == dev.i2c.answer && |d.i2c.sent| == |dev.i2c.sent| + 3 * i
    requires AllAck(dev.i2c.answer, |dev.i2c.sent|, 3 * i)
    requires ReadRaw(d).0.Failed?
    ensures FirstNak(dev.i2c.answer, |dev.i2c.sent|, 3 * count)
      == 3 * i + FirstNak(dev.i2c.answer, |d.i2c.sent|, 3) < 3 * count
    ensures Nak(ReadRaw(d).0.error)
      == dev.i2c.answer(|dev.i2c.sent| + FirstNak(dev.i2c.answer, |dev.i2c.sent|, 3 * count))
  {
    assert 3 * i + 3 <= 3 * count;
    FailedSampleStops(dev.i2c.answer, |dev.i2c.sent|, 3 * i, 3 * count);
  }

  /** ... and the log ends with the failed transfer. */
  lemma FailedSampleLog(dev: Itg3205, d: Itg3205, i: nat, count: nat)
    requires i < count
    requires d == dev.(i2c := dev.i2c.(sent := d.i2c.sent))
    requires d.i2c.sent == dev.i2c.sent + RawLog(3 * i)
    requires ReadRaw(d).0.Failed?
    requires FirstNak(dev.i2c.answer, |dev.i2c.sent|, 3 * count)
      == 3 * i + FirstNak(dev.i2c.answer, |d.i2c.sent|, 3) < 3 * count
    ensures ReadRaw(d).1 == dev.(i2c := dev.i2c.(sent := ReadRaw(d).1.i2c.sent))
    ensures ReadRaw(d).1.i2c.sent
      == dev.i2c.sent + RawLog(Made(FirstNak(dev.i2c.answer, |dev.i2c.sent|, 3 * count), 3 * count))
  {
    var k := FirstNak(d.i2c.answer, |d.i2c.sent|, 3);
    assert ReadRaw(d).1.i2c.sent == d.i2c.sent + RawReads[..k + 1];
    LogAfterFailed(dev.i2c.sent, i, k);
  }

  /** The loop of `calibrate`: `count` raw readings, summed; a failed read
      is returned at once. The offset is left alone. */
  method SumSamples(dev: Itg3205, count: u16) returns (result: BusResult<Vec3>, after: Itg3205)
    ensures after == dev.(i2c := dev.i2c.(sent := after.i2c.sent))
    ensures after.i2c.sent
      == dev.i2c.sent + RawLog(Made(FirstNak(dev.i2c.answer, |dev.i2c.sent|, 3 * count), 3 * count))
    ensures result.Done? <==> AllAck(dev.i2c.answer, |dev.i2c.sent|, 3 * count)
    ensures result.Done? ==> result.value == Sum(Samples(dev.i2c.answer, |dev.i2c.sent|, count))
    ensures result.Failed? ==>
      Nak(result.error) == dev.i2c.answer(|dev.i2c.sent| + FirstNak(dev.i2c.answer, |dev.i2c.sent|, 3 * count))
  {
    var accum := Vec3(0.0, 0.0, 0.0);
    var d := dev;
    var i := 0;
    ghost var a := dev.i2c.answer;
    ghost var base := |dev.i2c.sent|;
    while i < count
      invariant 0 <= i <= count
      invariant d == dev.(i2c := dev.i2c.(sent := d.i2c.sent))
      invariant |d.i2c.sent| == base + 3 * i
      invariant d.i2c.sent == dev.i2c.sent + RawLog(3 * i)
      invariant AllAck(a, base, 3 * i)
      invariant accum == Sum(Samples(a, base, i))
    {
      var read := ReadRaw(d);
      var raw, next := read.0, read.1;
      if raw.Failed? {
        FailedSample(dev, d, i, count as nat);
        FailedSampleLog(dev, d, i, count as nat);
        return Failed(raw.error), next;
      }
      GoodSample(dev, d, i);
      SumSnoc(Samples(a, base, i), raw.value);
      accum := Add(accum, ToVec3(raw.value));
      d := next;
      i := i + 1;
    }
    return Done(accum), d;
  }

  /** `calibrate`: average `numSamples` raw readings and store minus the
      mean as the offset. A failed read is returned at once and leaves the
      offset as it was. */
  method Calibrate(dev: Itg3205, numSamples: u16) returns (result: BusResult<()>, after: Itg3205)
    requires numSamples > 0
    ensures after.i2c == dev.i2c.(sent := after.i2c.sent)
    ensures after.i2c.sent
      == dev.i2c.sent + RawLog(Made(FirstNak(dev.i2c.answer, |dev.i2c.sent|, 3 * numSamples), 3 * numSamples))
    ensures result.Done? <==> AllAck(dev.i2c.answer, |dev.i2c.sent|, 3 * numSamples)
    ensures result.Done? ==>
      && after.offset == Scale(Sum(Samples(dev.i2c.answer, |dev.i2c.sent|, numSamples)), -1.0 / numSamples as real)
      && |after.i2c.sent| == |dev.i2c.sent| + 3 * numSamples
    ensures result.Failed? ==> after.offset == dev.offset
    ensures result.Failed? ==>
      Nak(result.error) == dev.i2c.answer(|dev.i2c.sent| + FirstNak(dev.i2c.answer, |dev.i2c.sent|, 3 * numSamples))
  {
    var sum, read := SumSamples(dev, numSamples);
    if sum.Failed? {
      return Failed(sum.error), read;
    }
    after := read.(offset := Scale(sum.value, -1.0 / numSamples as real));
    result := Done(());
  }

  /** The sum of `n` equal samples is `n` times the sample. */
  lemma {:induction false} ConstantSum(s: seq<I16x3>, v: I16x3, axis: Axis)
    requires forall k :: 0 <= k < |s| ==> s[k] == v
    ensures AxisSum(s, axis) == |s| as real * Component(v, axis) as real
  {
    if s != [] {
      ConstantSum(s[..|s| - 1], v, axis);
      var c := Component(v, axis) as real;
      assert AxisSum(s, axis) == (|s| - 1) as real * c + c;
    }
  }

  lemma Cancel(n: real, c: real)
    requires n != 0.0
    ensures (n * c) * (-1.0 / n) == -c
  {
  }

  /** Calibrating on a gyro that reads the same value every time makes the
      offset cancel that value: a later reading of it is zero. */
  lemma OffsetCancels(samples: seq<I16x3>, v: I16x3)
    requires |samples| > 0 && forall k :: 0 <= k < |samples| ==> samples[k] == v
    ensures Add(ToVec3(v), Scale(Sum(samples), -1.0 / |samples| as real)) == Vec3(0.0, 0.0, 0.0)
  {
    var n := |samples| as real;
    ConstantSum(samples, v, X);
    ConstantSum(samples, v, Y);
    ConstantSum(samples, v, Z);
    Cancel(n, v.x as real);
    Cancel(n, v.y as real);
    Cancel(n, v.z as real);
  }

  /** A device calibrated on samples that all read `v`, and then reading
      `v` again, reports zero rate on every axis. */
  lemma CalibratedReadIsZero(dev: Itg3205, samples: seq<I16x3>, v: I16x3)
    requires |samples| > 0 && forall k :: 0 <= k < |samples| ==> samples[k] == v
    requires ReadRaw(dev).0 == Done(v)
    ensures var calibrated := dev.(offset := Scale(Sum(samples), -1.0 / |samples| as real));
      Read(calibrated).0 == Done(Vec3(0.0, 0.0, 0.0))
  {
    var calibrated := dev.(offset := Scale(Sum(samples), -1.0 / |samples| as real));
    assert ReadRaw(calibrated).0 == ReadRaw(dev).0;
    OffsetCancels(samples, v);
  }
}

=== FILE: itg3205_register.dfy ===
/** The register map of the ITG-3205 gyroscope (`Register` of the `itg3205`
    crate): the twelve registers the driver uses and their addresses. */
module Itg3205Register {
  import opened Panics
  import opened Machine

  datatype Register =
    | PWR_MGM | SMPLRT_DIV | DLPF_FS | INT_CFG
    | TEMP_OUT_H | TEMP_OUT_L
    | GYRO_XOUT_H | GYRO_XOUT_L
    | GYRO_YOUT_H | GYRO_YOUT_L
    | GYRO_ZOUT_H | GYRO_ZOUT_L

  /** `Register::addr`: the register's declared discriminant. */
  function Addr(r: Register): u8
  {
    match r
    case PWR_MGM => 0x3E
    case SMPLRT_DIV => 0x15
    case DLPF_FS => 0x16
    case INT_CFG => 0x17
    case TEMP_OUT_H => 0x1B
    case TEMP_OUT_L => 0x1C
    case GYRO_XOUT_H => 0x1D
    case GYRO_XOUT_L => 0x1E
    case GYRO_YOUT_H => 0x1F
    case GYRO_YOUT_L => 0x20
    case GYRO_ZOUT_H => 0x21
    case GYRO_ZOUT_L => 0x22
  }

  /** The register at an address, if the map has one: the inverse of
      `Addr`, written from the device's point of view. */
  function FromAddr(a: u8): (r: Option<Register>)
    ensures r.Some? ==> Addr(r.value) == a
  {
    if a == 0x3E then Some(PWR_MGM)
    else if a == 0x15 then Some(SMPLRT_DIV)
    else if a == 0x16 then Some(DLPF_FS)
    else if a == 0x17 then Some(INT_CFG)
    else if 0x1B <= a <= 0x22 then
      Some([TEMP_OUT_H, TEMP_OUT_L, GYRO_XOUT_H, GYRO_XOUT_L, GYRO_YOUT_H, GYRO_YOUT_L, GYRO_ZOUT_H, GYRO_ZOUT_L][a - 0x1B])
    else None
  }

  /** Decoding an encoded address gives the register back, so no two
      registers share an address. */
  lemma AddrRoundTrip(r: Register)
    ensures FromAddr(Addr(r)) == Some(r)
  {
  }

  lemma AddrInjective(r: Register, s: Register)
    ensures Addr(r) == Addr(s) ==> r == s
  {
    AddrRoundTrip(r);
    AddrRoundTrip(s);
  }

  /** The low byte of each 16-bit output sits right after its high byte, and
      the three gyro axes are two addresses apart, starting at 0x1D. */
  lemma OutputLayout()
    ensures Addr(TEMP_OUT_L) == Addr(TEMP_OUT_H) + 1
    ensures Addr(GYRO_XOUT_L) == Addr(GYRO_XOUT_H) + 1
    ensures Addr(GYRO_YOUT_L) == Addr(GYRO_YOUT_H) + 1
    ensures Addr(GYRO_ZOUT_L) == Addr(GYRO_ZOUT_H) + 1
    ensures Addr(GYRO_XOUT_H) == 0x1D
    ensures Addr(GYRO_YOUT_H) == Addr(GYRO_XOUT_H) + 2
    ensures Addr(GYRO_ZOUT_H) == Addr(GYRO_YOUT_H) + 2
  {
  }
}

=== FILE: libm.dfy ===
/** The floating-point library the firmware calls (`libm` and the `f32`
    angle conversions). Single-precision floats are modelled as `real`, with
    no rounding. The transcendental functions are not defined here: they are
    supplied as function values, so that every proof holds for any choice of
    them. The one fact the model relies on, that a square root is never
    negative, is carried by the result type of `sqrtf`. */
module Libm {

  type NonNegReal = r: real | 0.0 <= r

  /** `core::f32::consts::PI`, written with the precision of an `f64`. */
  const Pi: real := 3.141592653589793

  datatype Libm = Libm(
    cosf: real -> real,
    sinf: real -> real,
    atan2f: (real, real) -> real,   // atan2f(y, x), in radians
    sqrtf: real -> NonNegReal)

  /** `f32::to_radians` */
  function ToRadians(degrees: real): (radians: real)
    ensures degrees == 180.0 ==> radians == Pi
    ensures 0.0 < degrees <==> 0.0 < radians
  {
    degrees * (Pi / 180.0)
  }

  /** `f32::to_degrees` */
  function ToDegrees(radians: real): (degrees: real)
    ensures radians == Pi ==> degrees == 180.0
    ensures 0.0 < radians <==> 0.0 < degrees
  {
    radians * (180.0 / Pi)
  }

  lemma DegreesRoundTrip(x: real)
    ensures ToDegrees(ToRadians(x)) == x
    ensures ToRadians(ToDegrees(x)) == x
  {
  }
}

=== FILE: machine.dfy ===
/** Fixed-width machine integers and the conversions between them. Dafny's
    integers are unbounded; every width and every wrap-around the firmware
    relies on is written out here. */
module Machine {

  type u8 = x: int | 0 <= x < 0x100
  type u16 = x: int | 0 <= x < 0x1_0000
  type i8 = x: int | -0x80 <= x < 0x80
  type i16 = x: int | -0x8000 <= x < 0x8000
  type i32 = x: int | -0x8000_0000 <= x < 0x8000_0000
  type i64 = x: int | -0x8000_0000_0000_0000 <= x < 0x8000_0000_0000_0000

  predicate IsI32(x: int) {
    -0x8000_0000 <= x < 0x8000_0000
  }

  /** Rust's `x as i32` on a wider integer: keep the low 32 bits and read them
      as two's complement. */
  function WrapI32(x: int): (r: i32)
    ensures (r - x) % 0x1_0000_0000 == 0
    ensures IsI32(x) ==> r == x
  {
    var low := x % 0x1_0000_0000;
    if low < 0x8000_0000 then low else low - 0x1_0000_0000
  }

  /** Truncation toward zero, the rounding of a float-to-integer `as` cast and
      of num-traits' float-to-integer conversion. */
  function Trunc(x: real): (r: int)
    ensures 0.0 <= x ==> r as real <= x < r as real + 1.0
    ensures x < 0.0 ==> r as real - 1.0 < x <= r as real
  {
    if 0.0 <= x then x.Floor else -((-x).Floor)
  }

  /** Rust's integer `/`, which rounds toward zero (Dafny's is Euclidean). */
  function TruncDiv(a: int, b: int): (q: int)
    requires b != 0
    ensures 0 <= a && 0 < b ==> q == a / b
    ensures q * b == a - TruncRem(a, b)
  {
    if (0 <= a) == (0 < b) then
      (if 0 <= a then a / b else (-a) / (-b))
    else
      -((if 0 <= a then a else -a) / (if 0 < b then b else -b))
  }

  /** The remainder that goes with `TruncDiv`: it takes the sign of `a`. */
  function TruncRem(a: int, b: int): (r: int)
    requires b != 0
    ensures 0 <= a ==> 0 <= r
    ensures a < 0 ==> r <= 0
  {
    var m := (if 0 <= a then a else -a) % (if 0 < b then b else -b);
    if 0 <= a then m else -m
  }

  /** Big-endian reading of two bytes as a two's-complement 16-bit value
      (`i16::from_be_bytes`). */
  function I16FromBeBytes(hi: u8, lo: u8): (r: i16)
    ensures (r < 0) == (hi >= 0x80)
  {
    var word := hi * 0x100 + lo;
    if word < 0x8000 then word else word - 0x1_0000
  }

  /** The two bytes of a 16-bit value, high byte first (`i16::to_be_bytes`). */
  function I16ToBeBytes(v: i16): (bytes: (u8, u8))
  {
    var word := if 0 <= v then v else v + 0x1_0000;
    (word / 0x100, word % 0x100)
  }

  lemma BeBytesRoundTrip(v: i16)
    ensures I16FromBeBytes(I16ToBeBytes(v).0, I16ToBeBytes(v).1) == v
  {
  }

  lemma BeBytesRoundTripBytes(hi: u8, lo: u8)
    ensures I16ToBeBytes(I16FromBeBytes(hi, lo)) == (hi, lo)
  {
  }
}

=== FILE: motor.dfy ===
/** A DC motor driven through a direction controller and a speed controller
    (`Motor` of the `motor` crate). A signed 8-bit speed is split into a
    rotation direction, from its sign, and a magnitude. */
module Motor {
  import opened Panics
  import opened Machine

  datatype RotationDirection = Clockwise | Counterclockwise | None

  /** A call the motor makes on one of its two inner controllers. */
  datatype MotorCall = SetDirection(direction: RotationDirection) | SetMagnitude(speed: int)

  /** The calls made, in order, and how the operation ended. */
  datatype MotorStep = MotorStep(calls: seq<MotorCall>, outcome: Result<()>)

  /** The direction for a speed's sign. */
  function DirectionOf(speed: i8): (d: RotationDirection)
    ensures d == Counterclockwise <==> speed < 0
    ensures d == RotationDirection.None <==> speed == 0
    ensures d == Clockwise <==> speed > 0
  {
    if speed < 0 then Counterclockwise else if speed == 0 then RotationDirection.None else Clockwise
  }

  /** `i8::abs`, which overflows on -128. */
  function AbsI8(x: i8): (r: Result<i8>)
    ensures r.Panic? <==> x == -128
    ensures r.Panic? ==> r.reason == AbsOverflow
    ensures r.Ok? ==> 0 <= r.value && (r.value == x || r.value == -x)
  {
    if x == -128 then Panic(AbsOverflow) else Ok(if x < 0 then -x else x)
  }

  /** `SetSpeed::set_speed`: the direction is set first, then the magnitude
      is forwarded, each controller exactly once. For -128 the direction has
      already been set when `abs` panics. The magnitude is reinterpreted as
      the speed controller's type; being in 0..127 it keeps its value. */
  function SetSpeed(speed: i8): (r: MotorStep)
    ensures |r.calls| >= 1 && r.calls[0] == SetDirection(DirectionOf(speed))
    ensures speed == -128 ==> r == MotorStep([SetDirection(Counterclockwise)], Panic(AbsOverflow))
    ensures speed != -128 ==>
      && r.outcome.Ok?
      && |r.calls| == 2
      && r.calls[1].SetMagnitude?
      && 0 <= r.calls[1].speed <= 127
      && r.calls[1].speed == (if speed < 0 then -speed else speed)
  {
    var first := SetDirection(DirectionOf(speed));
    match AbsI8(speed)
    case Panic(reason) => MotorStep([first], Panic(reason))
    case Ok(magnitude) => MotorStep([first, SetMagnitude(magnitude)], Ok(()))
  }

  /** The magnitude and direction together determine the speed: opposite
      speeds give the same magnitude and opposite directions. */
  lemma OppositeSpeeds(speed: i8)
    requires -127 <= speed <= 127
    ensures SetSpeed(speed).calls[1] == SetSpeed(-speed).calls[1]
    ensures speed > 0 ==>
      SetSpeed(speed).calls[0] == SetDirection(Clockwise) && SetSpeed(-speed).calls[0] == SetDirection(Counterclockwise)
  {
  }

  /** The signed speed a direction and a magnitude stand for, as the motor
      turns them back into a rotation. */
  function Signed(direction: RotationDirection, magnitude: int): int
  {
    match direction
    case Counterclockwise => -magnitude
    case Clockwise => magnitude
    case None => 0
  }

  /** The two calls of `set_speed` lose nothing: from the direction and the
      magnitude sent, the commanded speed is recovered, so different speeds
      give different calls. */
  lemma SetSpeedRecoverable(speed: i8, other: i8)
    requires speed != -128 && other != -128
    ensures Signed(SetSpeed(speed).calls[0].direction, SetSpeed(speed).calls[1].speed) == speed
    ensures SetSpeed(speed) == SetSpeed(other) ==> speed == other
  {
  }
}

=== FILE: movement_controller.dfy ===
/** The relative-move sequencer (`MovementController`). A requested pose
    change is carried out as three atomic movements, one stage at a time:
    turn to face the target, drive straight to it, turn by the requested
    angle. The controller advances a stage on a tick in which the wrapped
    chassis reports its target reached, and then issues the next stage's
    atomic movement.

    The controller is generic over what it drives, as the source is over any
    `MovementControlled`: that thing's tick, pose, "target reached" predicate and
    `move_atomic` are supplied as a `ControlledOps` record. */
module MovementController {
  import opened Panics
  import opened Libm
  import opened Chassis

  /** The source spells the first stage `InitialRotarion`. */
  datatype MovementStage = InitialRotation | Translation | FinalRotation

  /** A relative movement in progress: the requested pose change and the
      stage it has reached. */
  datatype Movement = Movement(movement: ChassisPosition, stage: MovementStage)

  datatype ControlledOps<!T> = ControlledOps(
    update: (T, real) -> Result<T>,
    position: T -> ChassisPosition,
    reached: T -> bool,
    moveAtomic: (T, AtomicMovement) -> T)

  datatype MovementController<T> = MovementController(atomic: T, movement: Option<Movement>)

  /** `Movement::new`: a movement starts at the initial rotation. */
  function NewMovement(delta: ChassisPosition): (m: Movement)
    ensures m.movement == delta && m.stage == InitialRotation
  {
    Movement(delta, InitialRotation)
  }

  /** `MovementController::new`: nothing in progress. */
  function New<T>(controlled: T): (mc: MovementController<T>)
    ensures mc.atomic == controlled && mc.movement.None?
  {
    MovementController(controlled, None)
  }

  /** How far along the three stages a movement is. */
  function Rank(stage: MovementStage): (n: nat)
    ensures n < 3
  {
    match stage
    case InitialRotation => 0
    case Translation => 1
    case FinalRotation => 2
  }

  /** `next_stage`: unwrap the movement (a panic when there is none), then
      step to the following stage, or drop the movement after the last. */
  function NextStage<T>(mc: MovementController<T>): (r: Result<MovementController<T>>)
    ensures mc.movement.None? <==> r == Panic(UnwrapNone)
    ensures r.Ok? ==> r.value.atomic == mc.atomic
    ensures r.Ok? && mc.movement.value.stage == FinalRotation ==> r.value.movement.None?
    ensures r.Ok? && mc.movement.value.stage != FinalRotation ==>
      && r.value.movement.Some?
      && r.value.movement.value.movement == mc.movement.value.movement
      && Rank(r.value.movement.value.stage) == Rank(mc.movement.value.stage) + 1
  {
    match mc.movement
    case None => Panic(UnwrapNone)
    case Some(m) =>
      match m.stage
      case InitialRotation => Ok(mc.(movement := Some(m.(stage := Translation))))
      case Translation => Ok(mc.(movement := Some(m.(stage := FinalRotation))))
      case FinalRotation => Ok(mc.(movement := None))
  }

  /** `sqrtf(dx.powi(2) + dy.powi(2))`: the straight-line distance. */
  function Distance(d: (real, real), libm: Libm): (r: NonNegReal)
    ensures r == libm.sqrtf(d.0 * d.0 + d.1 * d.1)
  {
    libm.sqrtf(d.0 * d.0 + d.1 * d.1)
  }

  /** The atomic movement that carries out `stage` of `m`, given the pose the
      controlled chassis reports. The initial turn subtracts the pose's
      heading from an angle in degrees, as the source does. */
  function StageCommand(m: Movement, pose: ChassisPosition, libm: Libm): (a: AtomicMovement)
    ensures m.stage == InitialRotation ==>
      a == Angular(ToDegrees(libm.atan2f(m.movement.linear.1, m.movement.linear.0)) - pose.angular)
    ensures m.stage == Translation ==> a.Linear? && 0.0 <= a.distance
    ensures m.stage == Translation ==> a == Linear(Distance(m.movement.linear, libm))
    ensures m.stage == FinalRotation ==> a == Angular(m.movement.angular)
  {
    var dx := m.movement.linear.0;
    var dy := m.movement.linear.1;
    match m.stage
    case InitialRotation => Angular(ToDegrees(libm.atan2f(dy, dx)) - pose.angular)
    case Translation => Linear(Distance(m.movement.linear, libm))
    case FinalRotation => Angular(m.movement.angular)
  }

  /** `start_stage`: unwrap the movement (a panic when there is none) and
      issue the atomic movement of its current stage. */
  function StartStage<T>(mc: MovementController<T>, ops: ControlledOps<T>, libm: Libm): (r: Result<MovementController<T>>)
    ensures mc.movement.None? <==> r == Panic(UnwrapNone)
    ensures r.Ok? ==>
      && r.value.movement == mc.movement
      && r.value.atomic == ops.moveAtomic(mc.atomic, StageCommand(mc.movement.value, ops.position(mc.atomic), libm))
  {
    match mc.movement
    case None => Panic(UnwrapNone)
    case Some(m) => Ok(mc.(atomic := ops.moveAtomic(mc.atomic, StageCommand(m, ops.position(mc.atomic), libm))))
  }

  /** `move_relative`: store the movement at its first stage, replacing any
      movement in progress. Nothing is commanded. */
  function MoveRelative<T>(mc: MovementController<T>, delta: ChassisPosition): (r: MovementController<T>)
    ensures r.movement == Some(NewMovement(delta))
    ensures r.atomic == mc.atomic
  {
    mc.(movement := Some(NewMovement(delta)))
  }

  /** `CheckTargetReached::is_target_reached`. */
  function IsTargetReached<T>(mc: MovementController<T>, ops: ControlledOps<T>): (reached: bool)
    ensures reached <==> mc.movement.None? && ops.reached(mc.atomic)
  {
    mc.movement.None? && ops.reached(mc.atomic)
  }

  /** `Update::update`: tick the controlled chassis once; when a movement is
      in progress and the chassis reports reached, `next_stage` then
      `start_stage`. */
  function Update<T>(mc: MovementController<T>, ops: ControlledOps<T>, libm: Libm, dt: real): (r: Result<MovementController<T>>)
    ensures ops.update(mc.atomic, dt).Panic? ==> r == Panic(ops.update(mc.atomic, dt).reason)
    ensures ops.update(mc.atomic, dt).Ok? ==>
      var ticked := ops.update(mc.atomic, dt).value;
      && (mc.movement.None? || !ops.reached(ticked) ==> r == Ok(mc.(atomic := ticked)))
      && (mc.movement.Some? && ops.reached(ticked) && mc.movement.value.stage == FinalRotation ==>
            r == Panic(UnwrapNone))
      && (mc.movement.Some? && ops.reached(ticked) && mc.movement.value.stage != FinalRotation ==>
            r.Ok? && r.value.movement.Some?
            && r.value.movement.value.movement == mc.movement.value.movement
            && Rank(r.value.movement.value.stage) == Rank(mc.movement.value.stage) + 1
            && r.value.atomic == ops.moveAtomic(ticked, StageCommand(r.value.movement.value, ops.position(ticked), libm)))
  {
    var ticked :- ops.update(mc.atomic, dt);
    var mc' := mc.(atomic := ticked);
    if mc.movement.Some? && ops.reached(ticked) then
      match NextStage(mc')
      case Ok(advanced) => StartStage(advanced, ops, libm)
      case Panic(reason) => Panic(reason)
    else
      Ok(mc')
  }

  /** The stage the controller holds never goes back to the initial rotation
      once a tick has been taken: `start_stage` runs only after `next_stage`,
      so the turn-to-face command is never issued by a tick. */
  lemma TickNeverStartsInitialRotation<T>(mc: MovementController<T>, ops: ControlledOps<T>, libm: Libm, dt: real)
    requires ops.update(mc.atomic, dt).Ok?
    requires mc.movement.Some? && ops.reached(ops.update(mc.atomic, dt).value)
    requires Update(mc, ops, libm, dt).Ok?
    ensures Update(mc, ops, libm, dt).value.movement.value.stage != InitialRotation
    ensures var ticked := ops.update(mc.atomic, dt).value;
      var m := mc.movement.value;
      Update(mc, ops, libm, dt).value.atomic in
        {ops.moveAtomic(ticked, Linear(Distance(m.movement.linear, libm))),
         ops.moveAtomic(ticked, Angular(m.movement.angular))}
  {
    var ticked := ops.update(mc.atomic, dt).value;
    var r := Update(mc, ops, libm, dt).value;
    var m := mc.movement.value;
    if m.stage == InitialRotation {
      assert r.movement.value.stage == Translation;
      assert r.atomic == ops.moveAtomic(ticked, StageCommand(r.movement.value, ops.position(ticked), libm));
    } else {
      assert m.stage == Translation;
      assert r.movement.value.stage == FinalRotation;
    }
  }

  /** Right after `new`, the controller's own "reached" is the chassis's. */
  lemma NewReachedIsChassisReached<T>(controlled: T, ops: ControlledOps<T>)
    ensures IsTargetReached(New(controlled), ops) == ops.reached(controlled)
  {
  }

  /** The controller after one `update` per tick length, in order; the first
      panic ends the run. */
  function Run<T>(mc: MovementController<T>, ops: ControlledOps<T>, libm: Libm, dts: seq<real>): (r: Result<MovementController<T>>)
    decreases |dts|
  {
    if dts == [] then Ok(mc)
    else
      var next :- Update(mc, ops, libm, dts[0]);
      Run(next, ops, libm, dts[1..])
  }

  /** As written, a relative movement never finishes: along any run of
      ticks that does not panic, the movement stays in progress, with the
      same target, and its stage never moves backwards. (The tick that would
      finish it is the one that panics, see `Update`.) */
  lemma {:induction false} MovementNeverFinishes<T>(mc: MovementController<T>, ops: ControlledOps<T>, libm: Libm, dts: seq<real>)
    requires mc.movement.Some?
    requires Run(mc, ops, libm, dts).Ok?
    ensures var r := Run(mc, ops, libm, dts).value;
      && r.movement.Some?
      && r.movement.value.movement == mc.movement.value.movement
      && Rank(mc.movement.value.stage) <= Rank(r.movement.value.stage)
    decreases |dts|
  {
    if dts != [] {
      var next := Update(mc, ops, libm, dts[0]).value;
      assert Run(mc, ops, libm, dts) == Run(next, ops, libm, dts[1..]);
      MovementNeverFinishes(next, ops, libm, dts[1..]);
    }
  }

  /** Once `move_relative` has been called, the controller never reports
      its target reached again along any run of ticks that does not
      panic. */
  lemma NeverReachedAfterMoveRelative<T>(mc: MovementController<T>, ops: ControlledOps<T>, libm: Libm,
                                         delta: ChassisPosition, dts: seq<real>)
    requires Run(MoveRelative(mc, delta), ops, libm, dts).Ok?
    ensures !IsTargetReached(Run(MoveRelative(mc, delta), ops, libm, dts).value, ops)
  {
    MovementNeverFinishes(MoveRelative(mc, delta), ops, libm, dts);
  }

  /** A chassis stand-in that records every atomic movement it is given and
      always reports its target reached. */
  function Recorder(): ControlledOps<seq<AtomicMovement>>
  {
    ControlledOps((t, dt) => Ok(t), t => Origin, t => true, (t, a) => t + [a])
  }

  /** The stage sequence as written, on a chassis that is always at its
      target: the first tick skips the turn-to-face and drives straight, the
      second issues the final turn, and the third, which should leave the
      controller idle, panics on `unwrap`. */
  lemma AsWrittenSequence(delta: ChassisPosition, libm: Libm, dt: real)
    ensures Run(MoveRelative(New([]), delta), Recorder(), libm, [dt, dt])
      == Ok(MovementController([Linear(Distance(delta.linear, libm)), Angular(delta.angular)], Some(Movement(delta, FinalRotation))))
    ensures Run(MoveRelative(New([]), delta), Recorder(), libm, [dt, dt, dt]) == Panic(UnwrapNone)
  {
    var ops := Recorder();
    var linear := Linear(Distance(delta.linear, libm));
    var mc0 := MoveRelative(New([]), delta);
    var mc1 := MovementController([linear], Some(Movement(delta, Translation)));
    var mc2 := MovementController([linear, Angular(delta.angular)], Some(Movement(delta, FinalRotation)));
    assert ops.position([]) == Origin && ops.position([linear]) == Origin;
    assert ops.moveAtomic([], linear) == [linear];
    assert ops.moveAtomic([linear], Angular(delta.angular)) == [linear, Angular(delta.angular)];
    assert Update(mc0, ops, libm, dt) == Ok(mc1);
    assert Update(mc1, ops, libm, dt) == Ok(mc2);
    assert Update(mc2, ops, libm, dt) == Panic(UnwrapNone);
    assert [dt, dt][1..] == [dt];
    assert [dt, dt, dt][1..] == [dt, dt];
    assert [dt][1..] == [];
    assert Run(mc1, ops, libm, [dt]) == Run(mc2, ops, libm, []) == Ok(mc2);
    assert Run(mc0, ops, libm, [dt, dt]) == Run(mc1, ops, libm, [dt]);
    assert Run(mc2, ops, libm, [dt]) == Panic(UnwrapNone);
    assert Run(mc1, ops, libm, [dt, dt]) == Run(mc2, ops, libm, [dt]);
    assert Run(mc0, ops, libm, [dt, dt, dt]) == Run(mc1, ops, libm, [dt, dt]);
  }
}

=== FILE: movement_controller_intended.dfy ===
/** The corrected relative-move sequencer, which removes three defects of
    `MovementController`:
    - the initial stage is started when the movement is requested, so the
      turn-to-face is actually carried out;
    - the initial turn converts the pose's heading (radians, as the odometry
      keeps it) to degrees before subtracting it;
    - finishing the final turn leaves the controller idle instead of
      starting a stage of a movement that no longer exists. */
module MovementControllerIntended {
  import opened Panics
  import opened Libm
  import opened Chassis
  import opened MovementController
  import MC = MovementController

  /** The stage's atomic movement, with the initial turn computed in one
      unit: carried out from `pose`, it leaves the chassis facing the target. */
  function IntendedStageCommand(m: Movement, pose: ChassisPosition, libm: Libm): (a: AtomicMovement)
    ensures m.stage == InitialRotation ==>
      a.Angular? && pose.angular + ToRadians(a.degrees) == libm.atan2f(m.movement.linear.1, m.movement.linear.0)
    ensures m.stage != InitialRotation ==> a == StageCommand(m, pose, libm)
  {
    match m.stage
    case InitialRotation =>
      var face := libm.atan2f(m.movement.linear.1, m.movement.linear.0);
      DegreesRoundTrip(face - pose.angular);
      Angular(ToDegrees(face) - ToDegrees(pose.angular))
    case _ => StageCommand(m, pose, libm)
  }

  /** `move_relative` followed at once by the start of its first stage. */
  function MoveRelativeStarting<T>(mc: MovementController<T>, ops: ControlledOps<T>, libm: Libm, delta: ChassisPosition)
    : (r: MovementController<T>)
    ensures r.movement == Some(NewMovement(delta))
    ensures r.atomic == ops.moveAtomic(mc.atomic, IntendedStageCommand(NewMovement(delta), ops.position(mc.atomic), libm))
  {
    var m := NewMovement(delta);
    MovementController(ops.moveAtomic(mc.atomic, IntendedStageCommand(m, ops.position(mc.atomic), libm)), Some(m))
  }

  /** A tick that, on the chassis reporting reached, advances the stage and
      starts the new one, or goes idle after the final turn. It panics only
      when the chassis's own tick does. */
  function UpdateCompleting<T>(mc: MovementController<T>, ops: ControlledOps<T>, libm: Libm, dt: real)
    : (r: Result<MovementController<T>>)
    ensures r.Panic? <==> ops.update(mc.atomic, dt).Panic?
    ensures r.Ok? ==>
      var ticked := ops.update(mc.atomic, dt).value;
      && (mc.movement.None? || !ops.reached(ticked) ==> r.value == mc.(atomic := ticked))
      && (mc.movement.Some? && ops.reached(ticked) && mc.movement.value.stage == FinalRotation ==>
            r.value == MovementController(ticked, None))
      && (mc.movement.Some? && ops.reached(ticked) && mc.movement.value.stage != FinalRotation ==>
            && r.value.movement.Some?
            && r.value.movement.value.movement == mc.movement.value.movement
            && Rank(r.value.movement.value.stage) == Rank(mc.movement.value.stage) + 1
            && r.value.atomic == ops.moveAtomic(ticked, IntendedStageCommand(r.value.movement.value, ops.position(ticked), libm)))
  {
    var ticked :- ops.update(mc.atomic, dt);
    match mc.movement
    case None => Ok(mc.(atomic := ticked))
    case Some(m) =>
      if !ops.reached(ticked) then Ok(mc.(atomic := ticked))
      else
        match m.stage
        case FinalRotation => Ok(MovementController(ticked, None))
        case _ =>
          var next := Movement(m.movement, if m.stage == InitialRotation then Translation else FinalRotation);
          Ok(MovementController(ops.moveAtomic(ticked, IntendedStageCommand(next, ops.position(ticked), libm)), Some(next)))
  }

  function RunCompleting<T>(mc: MovementController<T>, ops: ControlledOps<T>, libm: Libm, dts: seq<real>)
    : (r: Result<MovementController<T>>)
    decreases |dts|
  {
    if dts == [] then Ok(mc)
    else
      var next :- UpdateCompleting(mc, ops, libm, dts[0]);
      RunCompleting(next, ops, libm, dts[1..])
  }

  /** On a chassis that always reaches its target, a relative movement issues
      the turn to face the target, the straight drive and the final turn, in
      that order, each once, and the controller is then idle and reports its
      target reached. */
  lemma IntendedSequence(delta: ChassisPosition, libm: Libm, dt: real)
    ensures var face := Angular(ToDegrees(libm.atan2f(delta.linear.1, delta.linear.0)) - ToDegrees(0.0));
      RunCompleting(MoveRelativeStarting(MC.New([]), Recorder(), libm, delta), Recorder(), libm, [dt, dt, dt])
        == Ok(MovementController([face, Linear(Distance(delta.linear, libm)), Angular(delta.angular)], None))
    ensures var r := RunCompleting(MoveRelativeStarting(MC.New([]), Recorder(), libm, delta), Recorder(), libm, [dt, dt, dt]);
      r.Ok? && MC.IsTargetReached(r.value, Recorder())
  {
    var ops := Recorder();
    var face := Angular(ToDegrees(libm.atan2f(delta.linear.1, delta.linear.0)) - ToDegrees(0.0));
    var linear := Linear(Distance(delta.linear, libm));
    var final := Angular(delta.angular);
    var mc0 := MoveRelativeStarting(MC.New([]), ops, libm, delta);
    var mc1 := MovementController([face, linear], Some(Movement(delta, Translation)));
    var mc2 := MovementController([face, linear, final], Some(Movement(delta, FinalRotation)));
    var mc3 := MovementController([face, linear, final], None);
    assert ops.position([]) == Origin && ops.position([face]) == Origin && ops.position([face, linear]) == Origin;
    assert ops.moveAtomic([], face) == [face];
    assert mc0 == MovementController([face], Some(Movement(delta, InitialRotation)));
    assert ops.moveAtomic([face], linear) == [face, linear];
    assert ops.moveAtomic([face, linear], final) == [face, linear, final];
    assert UpdateCompleting(mc0, ops, libm, dt) == Ok(mc1);
    assert UpdateCompleting(mc1, ops, libm, dt) == Ok(mc2);
    assert UpdateCompleting(mc2, ops, libm, dt) == Ok(mc3);
    assert [dt, dt, dt][1..] == [dt, dt] && [dt, dt][1..] == [dt] && [dt][1..] == [];
    assert RunCompleting(mc2, ops, libm, [dt]) == RunCompleting(mc3, ops, libm, []) == Ok(mc3);
    assert RunCompleting(mc1, ops, libm, [dt, dt]) == RunCompleting(mc2, ops, libm, [dt]);
    assert RunCompleting(mc0, ops, libm, [dt, dt, dt]) == RunCompleting(mc1, ops, libm, [dt, dt]);
  }

  /** The unit defect as written: after a quarter turn the odometry holds a
      heading of pi/2 radians; for a target straight ahead (atan2 = 0) the
      source commands a turn of -pi/2 degrees, which does not bring the
      heading back to 0, where the intended command does. */
  lemma InitialTurnMixesUnits(delta: ChassisPosition, libm: Libm)
    requires libm.atan2f(delta.linear.1, delta.linear.0) == 0.0
    ensures var pose := ChassisPosition((0.0, 0.0), Pi / 2.0);
      var asWritten := StageCommand(NewMovement(delta), pose, libm);
      && asWritten == Angular(-(Pi / 2.0))
      && pose.angular + ToRadians(asWritten.degrees) != 0.0
      && IntendedStageCommand(NewMovement(delta), pose, libm) == Angular(-90.0)
  {
    var pose := ChassisPosition((0.0, 0.0), Pi / 2.0);
    assert ToDegrees(0.0) == 0.0;
    assert pose.angular + ToRadians(-(Pi / 2.0)) == (Pi / 2.0) * (1.0 - Pi / 180.0);
    assert ToDegrees(Pi / 2.0) == 90.0;
  }
}

=== FILE: panics.dfy ===
/** Outcomes of the firmware's operations. A Rust `panic!` (an `unwrap` on
    `None`, an `assert_ne!`, an arithmetic overflow in a debug build, an
    explicit `panic!`) and a Python exception both abort the computation; the
    model makes each of them an explicit `Panic` value carrying its reason. */
module Panics {

  datatype Reason =
    | UnwrapNone            // `Option::unwrap` on `None`
    | AssertNeFailed        // `assert_ne!` found its two arguments equal
    | IndexOutOfBounds      // explicit `panic!` on an index outside the table
    | AbsOverflow           // `i8::abs(-128)`
    | AddOverflow           // integer addition left its type's range
    | MulOverflow           // integer multiplication left its type's range
    | CastFailed            // `NumCast::from(..)` returned `None`
    | DivisionByZero        // integer division by zero
    | IndexError            // Python `IndexError`

  datatype Result<+T> = Ok(value: T) | Panic(reason: Reason) {

    predicate IsFailure() {
      Panic?
    }

    function PropagateFailure<U>(): Result<U>
      requires Panic?
    {
      Panic(reason)
    }

    function Extract(): T
      requires Ok?
    {
      value
    }
  }

  datatype Option<+T> = None | Some(value: T)
}

=== FILE: photo.dfy ===
/** The file-name key of the sample-capture script: `sorting` reads the
    number embedded in a name like "paper12.jpg", and `get_last_number`
    finds the largest such number in a directory listing. Characters are
    compared by code point; Python's IndexError is `Panic(IndexError)`. */
module Photo {
  import opened Panics
  import opened Decimal

  /** The skip loop: the first position at or after `i` whose code point
      is at most 57 ('9'); running off the end is an IndexError. */
  function SkipFrom(file: string, i: nat): (r: Result<nat>)
    ensures r.Ok? ==> i <= r.value < |file| && file[r.value] as int <= 57
    ensures r.Ok? ==> forall k :: i <= k < r.value ==> file[k] as int > 57
    ensures r.Panic? ==> r.reason == IndexError && forall k :: i <= k < |file| ==> file[k] as int > 57
    decreases |file| - i
  {
    if i >= |file| then Panic(IndexError)
    else if file[i] as int > 57 then SkipFrom(file, i + 1)
    else Ok(i)
  }

  /** The digit loop, accumulating in base 10 from `acc`; running off the
      end while still in the digit run is an IndexError. */
  function DigitsFrom(file: string, i: nat, acc: nat): (r: Result<nat>)
    ensures r.Panic? ==> r.reason == IndexError
    ensures r.Ok? ==> acc <= r.value
    decreases |file| - i
  {
    if i >= |file| then Panic(IndexError)
    else if IsDigit(file[i]) then DigitsFrom(file, i + 1, acc * 10 + DigitValue(file[i]))
    else Ok(acc)
  }

  /** `sorting`: skip the leading characters above '9', then read the run
      of digits that follows. */
  function Sorting(file: string): (r: Result<nat>)
    ensures r.Panic? ==> r.reason == IndexError
  {
    match SkipFrom(file, 0)
    case Panic(reason) => Panic(reason)
    case Ok(start) => DigitsFrom(file, start, 0)
  }

  /** Reading a run of digits `d` that starts at `i` carries on from the
      value of `d`. */
  lemma {:induction false} DigitsFromRun(file: string, i: nat, d: string, k: nat)
    requires i + |d| <= |file| && file[i..i + |d|] == d && AllDigits(d)
    requires k <= |d|
    ensures DigitsFrom(file, i, 0) == DigitsFrom(file, i + k, Value(d[..k]))
    decreases k
  {
    if k > 0 {
      DigitsFromRun(file, i, d, k - 1);
      assert file[i + (k - 1)] == d[k - 1];
      assert d[..k][..k - 1] == d[..k - 1];
    }
  }

  /** A name that is letters, then digits, then any non-digit (a '.' or a
      letter after at least one digit) has the digits' value as its key. */
  lemma SortingReadsNumber(prefix: string, digits: string, c: char, rest: string)
    requires forall k :: 0 <= k < |prefix| ==> prefix[k] as int > 57
    requires AllDigits(digits) && !IsDigit(c)
    requires digits != [] || c as int <= 57
    ensures Sorting(prefix + digits + [c] + rest) == Ok(Value(digits))
  {
    var file := prefix + digits + [c] + rest;
    SkipToDigits(file, prefix, 0);
    var start := |prefix|;
    assert file[start..start + |digits|] == digits;
    DigitsFromRun(file, start, digits, |digits|);
    assert digits[..|digits|] == digits;
    assert file[start + |digits|] == c;
  }

  lemma {:induction false} SkipToDigits(file: string, prefix: string, i: nat)
    requires |prefix| < |file| && file[..|prefix|] == prefix && file[|prefix|] as int <= 57
    requires forall k :: 0 <= k < |prefix| ==> prefix[k] as int > 57
    requires i <= |prefix|
    ensures SkipFrom(file, i) == Ok(|prefix|)
    decreases |prefix| - i
  {
    if i < |prefix| {
      assert file[i] == prefix[i];
      SkipToDigits(file, prefix, i + 1);
    }
  }

  /** A prefix the skip loop passes over entirely, such as "paper",
      "tinb" or "bottle". */
  predicate Skipped(prefix: string)
  {
    forall k :: 0 <= k < |prefix| ==> prefix[k] as int > 57
  }

  /** The name the capture loop saves photo number `n` under, for example
      `paper{n}.jpg`. */
  function SavedName(prefix: string, n: nat): string
  {
    prefix + Spell(n) + ".jpg"
  }

  /** The key of a file saved as `paper{n}.jpg` (or with another skipped
      prefix) is n. */
  lemma SortingOfSavedName(prefix: string, n: nat)
    requires Skipped(prefix)
    ensures Sorting(SavedName(prefix, n)) == Ok(n)
  {
    assert SavedName(prefix, n) == prefix + Spell(n) + ['.'] + "jpg";
    SortingReadsNumber(prefix, Spell(n), '.', "jpg");
    ValueOfSpell(n);
  }

  /** A name without any digit or other character at or below '9' fails in
      the skip loop; one that ends in its digit run fails in the digit
      loop (e.g. "paper12"). */
  lemma SortingFailsAtEnd(prefix: string, digits: string)
    requires forall k :: 0 <= k < |prefix| ==> prefix[k] as int > 57
    requires AllDigits(digits)
    ensures Sorting(prefix + digits) == Panic(IndexError)
  {
    var file := prefix + digits;
    if digits == [] {
      assert file == prefix;
    } else {
      SkipToDigits(file, prefix, 0);
      assert file[|prefix|..|prefix| + |digits|] == digits;
      DigitsFromRun(file, |prefix|, digits, |digits|);
    }
  }

  /** The keys of all names, in order; the first failing name's error is
      the result (Python's `sort` computes every key before sorting). */
  function Keys(names: seq<string>): (r: Result<seq<nat>>)
    ensures r.Ok? <==> forall i :: 0 <= i < |names| ==> Sorting(names[i]).Ok?
    ensures r.Ok? ==> |r.value| == |names| && forall i :: 0 <= i < |names| ==> r.value[i] == Sorting(names[i]).value
    ensures r.Panic? ==> r.reason == IndexError
  {
    if names == [] then Ok([])
    else
      match Sorting(names[0])
      case Panic(reason) => Panic(reason)
      case Ok(k) =>
        match Keys(names[1..])
        case Panic(reason) => Panic(reason)
        case Ok(ks) =>
          assert forall i :: 1 <= i < |names| ==> names[i] == names[1..][i - 1];
          Ok([k] + ks)
  }

  function Max(s: seq<nat>): (m: nat)
    requires |s| > 0
    ensures forall i :: 0 <= i < |s| ==> s[i] <= m
    ensures exists i :: 0 <= i < |s| && s[i] == m
  {
    if |s| == 1 then s[0]
    else
      var m := Max(s[1..]);
      assert forall i :: 1 <= i < |s| ==> s[i] == s[1..][i - 1];
      if s[0] >= m then s[0] else m
  }

  /** `get_last_number` on a directory listing: sort the names by key and
      return the key of the last one, i.e. the largest key. An empty listing
      is an IndexError, and so is any name whose key fails. */
  function GetLastNumber(names: seq<string>): (r: Result<nat>)
    ensures r.Ok? <==> |names| > 0 && forall i :: 0 <= i < |names| ==> Sorting(names[i]).Ok?
    ensures r.Panic? ==> r.reason == IndexError
    ensures r.Ok? ==> forall i :: 0 <= i < |names| ==> Sorting(names[i]).value <= r.value
    ensures r.Ok? ==> exists i :: 0 <= i < |names| && Sorting(names[i]) == r
  {
    match Keys(names)
    case Panic(reason) => Panic(reason)
    case Ok(keys) =>
      if |keys| == 0 then Panic(IndexError)
      else
        var m := Max(keys);
        ghost var i :| 0 <= i < |keys| && keys[i] == m;
        assert Sorting(names[i]) == Ok(m);
        Ok(m)
  }

  /** A directory listing holding the photos numbered `ns`. */
  function Listing(prefix: string, ns: seq<nat>): (names: seq<string>)
    ensures |names| == |ns|
    ensures forall i :: 0 <= i < |ns| ==> names[i] == SavedName(prefix, ns[i])
  {
    seq(|ns|, i requires 0 <= i < |ns| => SavedName(prefix, ns[i]))
  }

  /** The key of every photo in such a listing is its number. */
  lemma ListingKeys(prefix: string, ns: seq<nat>)
    requires Skipped(prefix)
    ensures forall i :: 0 <= i < |ns| ==> Sorting(Listing(prefix, ns)[i]) == Ok(ns[i])
  {
    forall i | 0 <= i < |ns| ensures Sorting(Listing(prefix, ns)[i]) == Ok(ns[i]) {
      SortingOfSavedName(prefix, ns[i]);
    }
  }

  /** As written, the capture loop starts numbering at `get_last_number`,
      the largest number already saved, so the first photo it takes is
      saved under a name the directory already holds: it replaces the
      newest photo. */
  lemma FirstCaptureOverwrites(prefix: string, ns: seq<nat>)
    requires Skipped(prefix) && |ns| > 0
    ensures GetLastNumber(Listing(prefix, ns)).Ok?
    ensures SavedName(prefix, GetLastNumber(Listing(prefix, ns)).value) in Listing(prefix, ns)
  {
    var names := Listing(prefix, ns);
    ListingKeys(prefix, ns);
    var r := GetLastNumber(names);
    var i :| 0 <= i < |names| && Sorting(names[i]) == r;
    assert names[i] == SavedName(prefix, r.value);
  }

  /** The number the capture loop evidently means to start from: one past
      the largest number already saved. An empty directory stays an
      IndexError, as in `get_last_number`. */
  function NextPhotoNumber(names: seq<string>): (r: Result<nat>)
    ensures r.Ok? <==> GetLastNumber(names).Ok?
    ensures r.Ok? ==> r.value == GetLastNumber(names).value + 1
    ensures r.Panic? ==> r.reason == IndexError
  {
    var last :- GetLastNumber(names);
    Ok(last + 1)
  }

  /** Starting from `NextPhotoNumber`, the first photo taken gets a name the
      directory does not hold yet. */
  lemma NextCaptureIsFresh(prefix: string, ns: seq<nat>)
    requires Skipped(prefix) && |ns| > 0
    ensures NextPhotoNumber(Listing(prefix, ns)).Ok?
    ensures SavedName(prefix, NextPhotoNumber(Listing(prefix, ns)).value) !in Listing(prefix, ns)
  {
    var names := Listing(prefix, ns);
    ListingKeys(prefix, ns);
    var n := NextPhotoNumber(names).value;
    if SavedName(prefix, n) in names {
      var i :| 0 <= i < |names| && names[i] == SavedName(prefix, n);
      SortingOfSavedName(prefix, n);
      assert false;
    }
  }
}

=== FILE: pid.dfy ===
/** The PID controller of the external `pid` crate, whose code is not part of
    this model. Only its interface is modelled: a controller has a public
    `setpoint` and internal terms it keeps between steps, and
    `next_control_output(measurement)` returns an output and updates those
    terms. How the output is computed is a parameter, `PidLaw`, so that every
    property holds for any gains, limits and integration scheme. */
module Pid {

  /** The controller's internal terms (integral, previous measurement, ...),
      opaque to this model. */
  type PidMemory = seq<real>

  datatype Pid = Pid(setpoint: real, memory: PidMemory)

  datatype Control = Control(output: real, memory: PidMemory)

  /** One step of the external controller: from the setpoint, the internal
      terms and a measurement to the output and the new internal terms. */
  type PidLaw = (real, PidMemory, real) -> Control

  /** `Pid::next_control_output(measurement).output`, with the controller as
      it is afterwards. The step never moves the setpoint. */
  function NextControlOutput(pid: Pid, law: PidLaw, measurement: real): (r: (real, Pid))
    ensures r.1.setpoint == pid.setpoint
    ensures r.0 == law(pid.setpoint, pid.memory, measurement).output
    ensures r.1.memory == law(pid.setpoint, pid.memory, measurement).memory
  {
    var c := law(pid.setpoint, pid.memory, measurement);
    (c.output, Pid(pid.setpoint, c.memory))
  }
}

=== FILE: rotary_encoder.dfy ===
/** A quadrature encoder read through a hardware counter (`RotaryEncoder` of
    the `rotary_encoder` crate). On every tick the counter value is read, the
    difference from the previous reading is converted to revolutions, and the
    velocity is that change divided by the tick length. The counter itself is
    hardware: its reading is an argument of `Update`. */
module RotaryEncoder {
  import opened Panics
  import opened Machine

  datatype RotaryEncoder = RotaryEncoder(
    ppr: real,          // pulses per revolution
    position: real,     // revolutions
    velocity: real,     // revolutions per second
    lastCount: i64)

  function New(pulsesPerRev: real): (e: RotaryEncoder)
    ensures e.ppr == pulsesPerRev
    ensures e.position == 0.0 && e.velocity == 0.0 && e.lastCount == 0
  {
    RotaryEncoder(pulsesPerRev, 0.0, 0.0, 0)
  }

  /** The count difference as the source computes it: an `i64` subtraction
      (which panics on overflow in a debug build), then `as i32`. The
      difference is last-minus-current, so counting up moves the position
      down. */
  function CountDelta(lastCount: i64, count: i64): (r: Result<i32>)
    ensures r.Ok? <==> -0x8000_0000_0000_0000 <= lastCount - count < 0x8000_0000_0000_0000
    ensures r.Panic? ==> r.reason == AddOverflow
    ensures r.Ok? && IsI32(lastCount - count) ==> r.value == lastCount - count
  {
    var d := lastCount - count;
    if -0x8000_0000_0000_0000 <= d < 0x8000_0000_0000_0000 then Ok(WrapI32(d)) else Panic(AddOverflow)
  }

  /** `RotaryEncoder::update`: `count` is the counter reading of this tick. */
  function Update(e: RotaryEncoder, count: i64, dt: real): (r: Result<RotaryEncoder>)
    requires e.ppr != 0.0 && dt != 0.0
    ensures r.Ok? <==> CountDelta(e.lastCount, count).Ok?
    ensures r.Ok? ==>
      && r.value.ppr == e.ppr
      && r.value.lastCount == count
      && r.value.position == e.position + CountDelta(e.lastCount, count).value as real / e.ppr
      && r.value.velocity * dt == r.value.position - e.position
  {
    var delta :- CountDelta(e.lastCount, count);
    var position := e.position + delta as real / e.ppr;
    Ok(RotaryEncoder(e.ppr, position, (position - e.position) / dt, count))
  }

  /** Reading the same count twice leaves the position where it was and
      reports standing still. */
  lemma RepeatedCountStandsStill(e: RotaryEncoder, dt: real)
    requires e.ppr != 0.0 && dt != 0.0
    ensures Update(e, e.lastCount, dt).Ok?
    ensures Update(e, e.lastCount, dt).value.position == e.position
    ensures Update(e, e.lastCount, dt).value.velocity == 0.0
  {
  }

  datatype Sample = Sample(count: i64, dt: real)

  /** The encoder after one `update` per sample, in order. */
  function UpdateAll(e: RotaryEncoder, samples: seq<Sample>): (r: Result<RotaryEncoder>)
    requires e.ppr != 0.0
    requires forall i :: 0 <= i < |samples| ==> samples[i].dt != 0.0
    ensures r.Ok? ==> r.value.ppr == e.ppr
    decreases |samples|
  {
    if samples == [] then Ok(e)
    else
      var next :- Update(e, samples[0].count, samples[0].dt);
      UpdateAll(next, samples[1..])
  }

  /** Every count difference along the run fits an `i32`, so `as i32` never
      wraps. */
  predicate DeltasFit(last: int, samples: seq<Sample>)
    decreases |samples|
  {
    samples == [] || (IsI32(last - samples[0].count) && DeltasFit(samples[0].count, samples[1..]))
  }

  /** Position telescopes: after any run whose count differences fit an
      `i32`, the position has moved by (first count - last count) / ppr,
      whatever happened in between. */
  lemma {:induction false} PositionTelescopes(e: RotaryEncoder, samples: seq<Sample>)
    requires e.ppr != 0.0
    requires forall i :: 0 <= i < |samples| ==> samples[i].dt != 0.0
    requires DeltasFit(e.lastCount, samples)
    ensures UpdateAll(e, samples).Ok?
    ensures var last := if samples == [] then e.lastCount else samples[|samples| - 1].count;
      && UpdateAll(e, samples).value.lastCount == last
      && UpdateAll(e, samples).value.position == e.position + (e.lastCount - last) as real / e.ppr
    decreases |samples|
  {
    if samples != [] {
      var next := Update(e, samples[0].count, samples[0].dt).value;
      var rest := samples[1..];
      assert forall i :: 0 <= i < |rest| ==> rest[i].dt != 0.0 by {
        forall i | 0 <= i < |rest| ensures rest[i].dt != 0.0 {
          assert rest[i] == samples[i + 1];
        }
      }
      PositionTelescopes(next, rest);
      if rest != [] {
        assert rest[|rest| - 1] == samples[|samples| - 1];
      }
      var last := samples[|samples| - 1].count;
      assert UpdateAll(e, samples) == UpdateAll(next, rest);
      assert next.position == e.position + (e.lastCount - next.lastCount) as real / e.ppr;
      SumOfQuotients((e.lastCount - next.lastCount) as real, (next.lastCount - last) as real, e.ppr);
    }
  }

  lemma SumOfQuotients(a: real, b: real, p: real)
    requires p != 0.0
    ensures a / p + b / p == (a + b) / p
  {
  }

  /** From power-up, the position is minus the latest count over ppr. */
  lemma PositionFromStart(ppr: real, samples: seq<Sample>)
    requires ppr != 0.0
    requires forall i :: 0 <= i < |samples| ==> samples[i].dt != 0.0
    requires DeltasFit(0, samples)
    requires samples != []
    ensures UpdateAll(New(ppr), samples).Ok?
    ensures UpdateAll(New(ppr), samples).value.position == (0 - samples[|samples| - 1].count) as real / ppr
  {
    PositionTelescopes(New(ppr), samples);
  }
}

=== FILE: take_samples.dfy ===
/** The index the sample-taking script gives the next image it saves in a
    directory: one past the largest purely numeric file stem. The input is
    the list of names of the plain files in the directory. */
module TakeSamples {
  import opened Decimal

  /** `name.split(".")[0]`: the text before the first '.', or the whole
      name when it has none. */
  function Stem(name: string): (r: string)
    ensures r <= name && '.' !in r
    ensures r == name || name[|r|] == '.'
  {
    if name == [] || name[0] == '.' then [] else [name[0]] + Stem(name[1..])
  }

  /** Python's `str.isdigit` on ASCII text: non-empty and all digits. */
  predicate IsDigitString(s: string) {
    |s| > 0 && AllDigits(s)
  }

  /** A file counts when its stem is a number. */
  predicate Counted(name: string) {
    IsDigitString(Stem(name))
  }

  function Index(name: string): nat
    requires Counted(name)
  {
    Value(Stem(name))
  }

  /** `max(indexes, default=-1) + 1` over the counted names. */
  function GetNextImageIndex(files: seq<string>): (r: nat)
    ensures forall i :: 0 <= i < |files| && Counted(files[i]) ==> Index(files[i]) < r
    ensures r == 0 || exists i :: 0 <= i < |files| && Counted(files[i]) && Index(files[i]) == r - 1
    ensures r == 0 <==> forall i :: 0 <= i < |files| ==> !Counted(files[i])
  {
    if files == [] then 0
    else
      var rest := GetNextImageIndex(files[1..]);
      assert forall i :: 1 <= i < |files| ==> files[i] == files[1..][i - 1];
      if Counted(files[0]) && Index(files[0]) + 1 > rest then Index(files[0]) + 1 else rest
  }

  /** A name whose stem is not a number does not change the next index,
      wherever it is listed. */
  lemma {:induction false} IgnoresUncounted(before: seq<string>, name: string, after: seq<string>)
    requires !Counted(name)
    ensures GetNextImageIndex(before + [name] + after) == GetNextImageIndex(before + after)
    decreases |before|
  {
    if before == [] {
      assert before + [name] + after == [name] + after;
      assert ([name] + after)[1..] == after;
      assert before + after == after;
    } else {
      assert (before + [name] + after)[0] == before[0];
      assert (before + [name] + after)[1..] == before[1..] + [name] + after;
      assert (before + after)[0] == before[0];
      assert (before + after)[1..] == before[1..] + after;
      IgnoresUncounted(before[1..], name, after);
    }
  }

  /** Saving the image as `{idx}.png` makes the next index one larger. */
  lemma SavingAdvancesIndex(files: seq<string>)
    ensures
      var idx := GetNextImageIndex(files);
      GetNextImageIndex(files + [Spell(idx) + ".png"]) == idx + 1
  {
    var idx := GetNextImageIndex(files);
    var name := Spell(idx) + ".png";
    StemOfNumberedName(idx, "png");
    assert name == Spell(idx) + "." + "png";
    assert Stem(name) == Spell(idx);
    ValueOfSpell(idx);
    var files' := files + [name];
    var r := GetNextImageIndex(files');
    assert files'[|files|] == name;
    assert Index(name) == idx;
    assert r >= idx + 1;
  }

  lemma StemOfNumberedName(n: nat, ext: string)
    ensures Stem(Spell(n) + "." + ext) == Spell(n)
  {
    var digits := Spell(n);
    assert digits + "." + ext == digits + ("." + ext);
    StemOfPrefix(digits, "." + ext);
  }

  lemma {:induction false} StemOfPrefix(s: string, rest: string)
    requires '.' !in s && |rest| > 0 && rest[0] == '.'
    ensures Stem(s + rest) == s
  {
    if s != [] {
      assert (s + rest)[1..] == s[1..] + rest;
      StemOfPrefix(s[1..], rest);
    } else {
      assert s + rest == rest;
    }
  }
}

=== FILE: wheel.dfy ===
/** The per-wheel velocity loop (`Wheel` of the `wheel` crate). It owns an
    actuator that accepts and reports a speed in its own integer units, an
    encoder, and a PID controller whose setpoint is the target velocity. The
    loop is additive: each tick the PID output is added to the speed the
    actuator is already running at, instead of being sent as an absolute
    command. */
module Wheel {
  import opened Panics
  import opened Machine
  import opened Pid
  import RotaryEncoder

  /** The range of the actuator's native integer speed type (for an `i8`
      speed, -128..127). Every such type holds zero. */
  datatype NativeRange = NativeRange(lo: int, hi: int) {
    predicate Valid() {
      lo <= 0 <= hi
    }

    predicate Contains(x: int) {
      lo <= x <= hi
    }
  }

  /** The speed controller the wheel drives: the last speed it was set to,
      in its own units, which is also what it reports back. */
  datatype Actuator = Actuator(range: NativeRange, speed: int)

  /** `maxSpeed` is the wheel's top speed, which the position loop divides by
      to normalise; the source reads such a field, but `Wheel` does not
      declare one, so it is configuration here. */
  datatype Wheel = Wheel(
    actuator: Actuator,
    encoder: RotaryEncoder.RotaryEncoder,
    pid: Pid,
    maxSpeed: real)

  function New(actuator: Actuator, encoder: RotaryEncoder.RotaryEncoder, pid: Pid, maxSpeed: real): (w: Wheel)
    ensures w.actuator == actuator && w.encoder == encoder && w.pid == pid
    ensures w.maxSpeed == maxSpeed
  {
    Wheel(actuator, encoder, pid, maxSpeed)
  }

  /** `NumCast::from(x)` from a float to the actuator's integer type: the
      value is truncated toward zero, and the conversion fails when the
      truncated value does not fit. */
  function CastToNative(x: real, range: NativeRange): (r: Option<int>)
    requires range.Valid()
    ensures r.Some? <==> range.Contains(Trunc(x))
    ensures r.Some? ==> r.value == Trunc(x)
  {
    assert 0.0 <= x ==> (x.Floor <= range.hi <==> x < (range.hi + 1) as real);
    assert x < 0.0 ==> ((-x).Floor <= -range.lo <==> -x < (-range.lo + 1) as real);
    if (range.lo - 1) as real < x < (range.hi + 1) as real then Some(Trunc(x)) else None
  }

  /** `Wheel::update`: tick the encoder with the counter reading `count`, feed
      the negated measured velocity to the PID, and add the converted output
      to the actuator's current speed. */
  function Update(w: Wheel, law: PidLaw, count: i64, dt: real): (r: Result<Wheel>)
    requires w.actuator.range.Valid()
    requires w.encoder.ppr != 0.0 && dt != 0.0
    ensures RotaryEncoder.Update(w.encoder, count, dt).Panic? ==> r == Panic(AddOverflow)
    ensures RotaryEncoder.Update(w.encoder, count, dt).Ok? ==>
      var encoder := RotaryEncoder.Update(w.encoder, count, dt).value;
      var output := law(w.pid.setpoint, w.pid.memory, -encoder.velocity).output;
      && (!w.actuator.range.Contains(Trunc(output)) ==> r == Panic(CastFailed))
      && (w.actuator.range.Contains(Trunc(output)) && !w.actuator.range.Contains(w.actuator.speed + Trunc(output)) ==>
            r == Panic(AddOverflow))
      && (r.Ok? ==>
            && r.value.encoder == encoder
            && r.value.actuator.range == w.actuator.range
            && r.value.actuator.speed - w.actuator.speed == Trunc(output)
            && r.value.pid.setpoint == w.pid.setpoint
            && r.value.pid.memory == law(w.pid.setpoint, w.pid.memory, -encoder.velocity).memory
            && r.value.maxSpeed == w.maxSpeed)
    ensures r.Ok? <==>
      && RotaryEncoder.Update(w.encoder, count, dt).Ok?
      && var output := law(w.pid.setpoint, w.pid.memory, -RotaryEncoder.Update(w.encoder, count, dt).value.velocity).output;
         w.actuator.range.Contains(Trunc(output)) && w.actuator.range.Contains(w.actuator.speed + Trunc(output))
  {
    var encoder :- RotaryEncoder.Update(w.encoder, count, dt);
    var (output, pid) := NextControlOutput(w.pid, law, -encoder.velocity);
    var control := CastToNative(output, w.actuator.range);
    if control.None? then Panic(CastFailed)
    else
      var newSpeed := w.actuator.speed + control.value;
      if !w.actuator.range.Contains(newSpeed) then Panic(AddOverflow)
      else Ok(Wheel(w.actuator.(speed := newSpeed), encoder, pid, w.maxSpeed))
  }

  /** `Wheel::set_speed`: only the target velocity changes; the actuator
      keeps running at its current speed until the next tick. */
  function SetSpeed(w: Wheel, speed: real): (r: Wheel)
    ensures r.pid.setpoint == speed
    ensures r.actuator == w.actuator && r.encoder == w.encoder
    ensures r.pid.memory == w.pid.memory && r.maxSpeed == w.maxSpeed
  {
    w.(pid := w.pid.(setpoint := speed))
  }

  /** `Wheel::get_speed`: the velocity the encoder measured, not the
      setpoint. */
  function GetSpeed(w: Wheel): (v: real)
    ensures v == w.encoder.velocity
  {
    w.encoder.velocity
  }

  /** The wheel's travelled distance, read from its encoder. */
  function GetPosition(w: Wheel): (p: real)
    ensures p == w.encoder.position
  {
    w.encoder.position
  }

  /** A tick moves the wheel's position by the counter difference over
      ppr, as its encoder's tick does, and the speed `get_speed` reports
      next is that move over the tick length. */
  lemma UpdateMovesByEncoder(w: Wheel, law: PidLaw, count: i64, dt: real)
    requires w.actuator.range.Valid()
    requires w.encoder.ppr != 0.0 && dt != 0.0
    requires Update(w, law, count, dt).Ok?
    ensures var r := Update(w, law, count, dt).value;
      && GetPosition(r) == GetPosition(w) + RotaryEncoder.CountDelta(w.encoder.lastCount, count).value as real / w.encoder.ppr
      && GetSpeed(r) * dt == GetPosition(r) - GetPosition(w)
  {
  }

  /** The loop has a dead band: a PID output smaller than one unit of the
      actuator's speed truncates to zero and leaves the actuator speed as
      it was, however long the velocity error persists. */
  lemma SmallOutputHoldsSpeed(w: Wheel, law: PidLaw, count: i64, dt: real)
    requires w.actuator.range.Valid() && w.actuator.range.Contains(w.actuator.speed)
    requires w.encoder.ppr != 0.0 && dt != 0.0
    requires RotaryEncoder.Update(w.encoder, count, dt).Ok?
    requires var v := RotaryEncoder.Update(w.encoder, count, dt).value.velocity;
      -1.0 < law(w.pid.setpoint, w.pid.memory, -v).output < 1.0
    ensures Update(w, law, count, dt).Ok?
    ensures Update(w, law, count, dt).value.actuator == w.actuator
  {
    var v := RotaryEncoder.Update(w.encoder, count, dt).value.velocity;
    assert Trunc(law(w.pid.setpoint, w.pid.memory, -v).output) == 0;
  }

  /** `get_speed` reports the measurement, not the setpoint: setting a new
      target velocity does not change what it returns. */
  lemma GetSpeedIsMeasured(w: Wheel, speed: real)
    ensures GetSpeed(SetSpeed(w, speed)) == GetSpeed(w) == w.encoder.velocity
  {
  }
}

=== FILE: wheel_position_controller.dfy ===
/** The per-wheel position loop (`WheelPositionController`). It wraps one
    velocity loop and works in a normalised domain: positions are divided by
    `maxPosition` and speeds by the wheel's top speed, so the PID gains do not
    depend on units. Its output, a target velocity, is clamped to
    [-maxSpeed, maxSpeed]. */
module WheelPositionController {
  import opened Panics
  import opened Machine
  import opened Pid
  import Wheel

  datatype WheelPositionController = WheelPositionController(
    wheel: Wheel.Wheel,
    pid: Pid,                  // setpoint: the normalised target position
    maxPosition: real,
    maxTargetDistance: real,   // the tolerance of "target reached"
    maxSpeed: real)

  /** The divisions of the loop are defined: `new` rejects a zero
      `maxPosition`, and the wheel's top speed is configured non-zero. */
  predicate Valid(c: WheelPositionController) {
    c.maxPosition != 0.0 && c.wheel.maxSpeed != 0.0
  }

  /** `WheelPositionController::new`: `assert_ne!(max_position, 0.0)`. */
  function New(wheel: Wheel.Wheel, pid: Pid, maxPosition: real, epsilon: real): (r: Result<WheelPositionController>)
    ensures r.Panic? <==> maxPosition == 0.0
    ensures r.Panic? ==> r.reason == AssertNeFailed
    ensures r.Ok? ==>
      && r.value.wheel == wheel && r.value.pid == pid
      && r.value.maxPosition == maxPosition
      && r.value.maxTargetDistance == epsilon
      && r.value.maxSpeed == 1.0
    ensures r.Ok? && wheel.maxSpeed != 0.0 ==> Valid(r.value)
  {
    if maxPosition == 0.0 then Panic(AssertNeFailed)
    else Ok(WheelPositionController(wheel, pid, maxPosition, epsilon, 1.0))
  }

  function NormalizePosition(c: WheelPositionController, pos: real): real
    requires c.maxPosition != 0.0
  {
    pos / c.maxPosition
  }

  function DenormalizePosition(c: WheelPositionController, pos: real): real
  {
    pos * c.maxPosition
  }

  function NormalizeSpeed(c: WheelPositionController, speed: real): real
    requires Valid(c)
  {
    speed / c.wheel.maxSpeed
  }

  function DenormalizeSpeed(c: WheelPositionController, speed: real): real
  {
    speed * c.wheel.maxSpeed
  }

  /** Normalising and denormalising are inverse to each other, both ways,
      for positions and for speeds. */
  lemma NormalizationRoundTrips(c: WheelPositionController, x: real)
    requires Valid(c)
    ensures DenormalizePosition(c, NormalizePosition(c, x)) == x
    ensures NormalizePosition(c, DenormalizePosition(c, x)) == x
    ensures DenormalizeSpeed(c, NormalizeSpeed(c, x)) == x
    ensures NormalizeSpeed(c, DenormalizeSpeed(c, x)) == x
  {
  }

  /** `get_target_position`: the denormalised PID setpoint. */
  function GetTargetPosition(c: WheelPositionController): (target: real)
    ensures c.maxPosition != 0.0 ==> NormalizePosition(c, target) == c.pid.setpoint
  {
    DenormalizePosition(c, c.pid.setpoint)
  }

  /** `set_position`: the target is stored normalised, and reading it back
      returns exactly what was set. Nothing else changes. */
  function SetPosition(c: WheelPositionController, position: real): (r: WheelPositionController)
    requires c.maxPosition != 0.0
    ensures Valid(r) <==> Valid(c)
    ensures GetTargetPosition(r) == position
    ensures r.pid.memory == c.pid.memory
    ensures r == c.(pid := r.pid)
  {
    c.(pid := c.pid.(setpoint := NormalizePosition(c, position)))
  }

  /** `SetSpeed::set_speed`: `assert_ne!(speed, 0.0)`, then only the cruise
      limit changes. */
  function SetSpeed(c: WheelPositionController, speed: real): (r: Result<WheelPositionController>)
    ensures r.Panic? <==> speed == 0.0
    ensures r.Panic? ==> r.reason == AssertNeFailed
    ensures r.Ok? ==> r.value == c.(maxSpeed := speed)
  {
    if speed == 0.0 then Panic(AssertNeFailed) else Ok(c.(maxSpeed := speed))
  }

  /** `get_speed`: the wrapped wheel's measured velocity. */
  function GetSpeed(c: WheelPositionController): (v: real)
    ensures v == c.wheel.encoder.velocity
  {
    Wheel.GetSpeed(c.wheel)
  }

  /** `get_position`: the wrapped wheel's position. */
  function GetPosition(c: WheelPositionController): (p: real)
    ensures p == c.wheel.encoder.position
  {
    Wheel.GetPosition(c.wheel)
  }

  /** `x.min(limit).max(-limit)`. For a positive limit the result lies in
      [-limit, limit] and equals `x` when `x` already does; for a negative
      limit (which `set_speed` accepts) the result is always `-limit`. */
  function Clamp(x: real, limit: real): (r: real)
    ensures 0.0 < limit ==> -limit <= r <= limit
    ensures 0.0 < limit && -limit <= x <= limit ==> r == x
    ensures 0.0 < limit && limit < x ==> r == limit
    ensures 0.0 < limit && x < -limit ==> r == -limit
    ensures limit <= 0.0 ==> r == -limit
  {
    var upper := if x < limit then x else limit;
    if upper < -limit then -limit else upper
  }

  /** The velocity command of one tick, computed from the wheel as it is
      after its own tick and the position PID's output. */
  function Command(c: WheelPositionController, ticked: Wheel.Wheel, control: real): real
    requires Valid(c)
  {
    var speed := Wheel.GetSpeed(ticked) / c.wheel.maxSpeed;
    Clamp(DenormalizeSpeed(c, speed + control), c.maxSpeed)
  }

  /** `Update::update`: tick the wheel first, then run the PID on the
      normalised position and send the clamped, denormalised
      `speed + output` to the wheel as its target velocity. */
  function Update(c: WheelPositionController, wheelLaw: PidLaw, law: PidLaw, count: i64, dt: real)
    : (r: Result<WheelPositionController>)
    requires Valid(c) && c.wheel.actuator.range.Valid()
    requires c.wheel.encoder.ppr != 0.0 && dt != 0.0
    ensures r.Ok? <==> Wheel.Update(c.wheel, wheelLaw, count, dt).Ok?
    ensures r.Panic? ==> r.reason == Wheel.Update(c.wheel, wheelLaw, count, dt).reason
    ensures r.Ok? ==>
      var ticked := Wheel.Update(c.wheel, wheelLaw, count, dt).value;
      var output := law(c.pid.setpoint, c.pid.memory, GetPosition(c.(wheel := ticked)) / c.maxPosition).output;
      && r.value.wheel == Wheel.SetSpeed(ticked, Command(c, ticked, output))
      && r.value.pid.setpoint == c.pid.setpoint
      && r.value.pid.memory == law(c.pid.setpoint, c.pid.memory, GetPosition(c.(wheel := ticked)) / c.maxPosition).memory
      && r.value == c.(wheel := r.value.wheel, pid := r.value.pid)
    ensures r.Ok? && 0.0 < c.maxSpeed ==> -c.maxSpeed <= r.value.wheel.pid.setpoint <= c.maxSpeed
    ensures r.Ok? && c.maxSpeed < 0.0 ==> r.value.wheel.pid.setpoint == -c.maxSpeed
  {
    var ticked :- Wheel.Update(c.wheel, wheelLaw, count, dt);
    var position := NormalizePosition(c, Wheel.GetPosition(ticked));
    var (control, pid) := NextControlOutput(c.pid, law, position);
    var command := Command(c, ticked, control);
    Ok(c.(wheel := Wheel.SetSpeed(ticked, command), pid := pid))
  }

  /** The wheel's tick keeps its configuration, so the loop stays valid. */
  lemma UpdateKeepsValid(c: WheelPositionController, wheelLaw: PidLaw, law: PidLaw, count: i64, dt: real)
    requires Valid(c) && c.wheel.actuator.range.Valid()
    requires c.wheel.encoder.ppr != 0.0 && dt != 0.0
    requires Update(c, wheelLaw, law, count, dt).Ok?
    ensures Valid(Update(c, wheelLaw, law, count, dt).value)
    ensures Update(c, wheelLaw, law, count, dt).value.wheel.encoder.ppr == c.wheel.encoder.ppr
    ensures Update(c, wheelLaw, law, count, dt).value.wheel.actuator.range == c.wheel.actuator.range
  {
  }
}
